=== FILE: README.md ===
# Catalog recommender: a Dafny model

This project models the core of `main.cpp`, a file-backed catalog of products, users and reviews with a
content-based recommender. Each command of the program reloads three JSON files, performs one query
or mutation, and writes the files back. The model covers:

- the hand-rolled JSON codec: `escapeJsonString`, `extractJsonValue`, the `toJson` methods and the
  `parseArray` splitter;
- `loadData`, which decodes every array fragment, skips the ones that fail, advances the id
  counters as `max(counter, id + 1)`, and seeds and saves the default data when nothing decodes;
- `saveData`, which writes one array per file, one object per line;
- `calculateAverageRating`, the finders, `hasUserReviewed` and `getReviewedProductIds`;
- `addUser`, `addProduct`, `addReview` with its ordered checks, and the cascading
  `deleteUser` and `deleteProduct`;
- `getRecommendationsJson`: take the category of the user's last reviewed product, filter its
  unreviewed products, sort them by average rating from the highest down, and take the first three.

Everything is modelled as pure functions over immutable values. A catalog is a `Store`
(`catalog.dfy`), and the three files are a `Files` value of optional texts (`persistence.dfy`).
Prices are whole cents. Errors the program reports as a `"status":"error"` envelope are `Failure`
values of `Catalog.Error`.

Modules, in dependency order:

- `Basics`: `Option`, `Result`, the 32-bit `int` range.
- `Text`: `isspace`, the blank set of the splitter, `find`, `find_first_of` and trimming.
- `Numbers`: how `operator<<` writes `int`s and fixed two-decimal prices, and how `stoi` and `stod`
  read them.
- `Codec`: escaping and the single-field extractor.
- `Objects`: flat objects as `toJson` writes them, and proof that the extractor reads every member
  back.
- `Arrays`: `parseArray` and the array text `saveData` writes.
- `Entities`: the three records, their `toJson` texts and their decoders.
- `Catalog`: the store, the finders, averages, adding and deleting.
- `Recommend`: the recommender.
- `Persistence`: loading, seeding, saving and their round trip.

Behaviour worth knowing:

- **Ties in the ranking.** The ranking uses `std::sort`, which is not stable. The model sorts with an
  insertion sort. The recommender's properties are proved for the first three of *any* arrangement
  of the candidates from the highest average down (`Recommend.TopOfDescending`), not for one tie
  order.
- **Id reuse.** The counters are rebuilt from the loaded ids on every load. After the product with
  the largest id is deleted and the catalog saved, the next process hands out an id no larger than
  the deleted one (`Persistence.IdReuse`). When the product before it has the next smaller id, the
  next process hands out exactly the deleted id again (`Persistence.IdReused`).
- **Seeding.** The default data is seeded whenever no fragment of any file decodes, and the counters
  are then *set* to 1004 and 102. So in a fresh installation the first added product gets 1004.
- **Quotes in strings.** `extractJsonValue` cuts a quoted value at the first `"`, even an escaped one.
  A name holding a quote is cut on reloading (`Entities.QuoteInNameIsCut`), and the unescaping loop
  never finds anything to rewrite (`Codec.Unescape`).

## Model

| member | source | states |
|---|---|---|
| Codec.Escape | main.cpp:25-38 | Text without special characters is unchanged, and any other text grows. No raw newline, carriage return or tab is left. A quote, `{` or `}` is present after escaping exactly when it was present before. |
| Codec.EscapeConcat | main.cpp:25-38 | Escaping works character by character: escaping a concatenation is the concatenation of the escaped parts. |
| Codec.EscapeIsLossless | main.cpp:25-38 | Decoding the escapes that `Escape` writes gives back the original text, so escaping loses nothing. The decoder reads a backslash and the character after it as one character. |
| Codec.Unescape | main.cpp:62-67 | The `\"` clean-up never lengthens the value and leaves quote-free text alone. This is the only text it ever sees, since the value was cut at the first quote. |
| Codec.ExtractValue | main.cpp:43-77 | If `"key":` does not occur, the value is the empty text. |
| Codec.ExtractAt | main.cpp:44-48 | The value is read from the text right after the first occurrence of `"key":`. |
| Codec.ValueOfBlank | main.cpp:50-53 | Nothing but white space after the key reads as the empty value. |
| Codec.ValueOfQuoted | main.cpp:50-69 | After skipping white space, a quoted value reads as the text up to the next quote. |
| Codec.ValueOfUnclosed | main.cpp:56-76 | An opening quote with no closing quote reads as the empty value. |
| Codec.ValueOfBare | main.cpp:71-74 | A bare value reads as the token up to the first space, tab, newline, carriage return, `,` or `}`. |
| Codec.ValueOfUnterminated | main.cpp:71-76 | A bare token with no delimiter after it reads as the empty value. |
| Codec.QuotedValueShape | main.cpp:56-69 | A quoted value never holds a quote, because it is cut at the first one. |
| Codec.BareValueShape | main.cpp:71-74 | A bare value never holds a space, tab, newline, carriage return, `,` or `}`. |
| Text.Find | main.cpp:45 | Gives the first occurrence at or after the start index. `npos` means there is no occurrence anywhere after that index. |
| Text.IndexOfAny | main.cpp:73 | Gives the first position holding one of the characters. `npos` means no character of the set occurs. |
| Text.DropSpace | main.cpp:51 | Drops exactly the leading `isspace` characters: what remains is a suffix that does not start with white space. |
| Text.Trim | main.cpp:240-246 | The trimmed item neither starts nor ends with a blank. It is empty exactly when the item was all blanks. |
| Text.TrimKeeps | main.cpp:240-246 | Trimming removes exactly the blanks around a text that begins and ends with non-blanks. |
| Numbers.IntText | main.cpp:102-104 | A written `int` is digits with a leading `-` exactly when it is negative. |
| Numbers.ParseInt | main.cpp:257 | `stoi` gives only 32-bit values, and fails when no digit follows the white space and sign. |
| Numbers.IntTextRoundTrip | main.cpp:257 | `stoi` reads back every 32-bit `int` as written. |
| Numbers.ParseIntNeedsDigit | main.cpp:256-263 | A text with no digit never parses, so its fragment is skipped. |
| Numbers.PriceText | main.cpp:132-137 | A written price has exactly two decimals after its only `.`. It starts with `-` exactly when it is negative, and every other character is a digit. |
| Numbers.PriceTextRoundTrip | main.cpp:258 | `stod` reads back every price the catalog writes, to the cent. |
| Numbers.ParsePrice | main.cpp:258 | `stod` in cents. A price read as negative comes from a text holding a `-`. |
| Numbers.ParsePriceNeedsDigit | main.cpp:258 | A text with no digit never parses as a price, as `stod` throws on it, so the fragment is skipped. |
| Objects.ExtractRendered | main.cpp:43-77 | In a well-formed flat object with distinct keys, the extractor reads every member back as the text it was written with. |
| Objects.ExtractOfTwo | main.cpp:157-164 | In a two-member object, the first value reads back. The second is read from the text after its key, whatever that text holds. |
| Objects.RenderFlat | main.cpp:99-164 | A `toJson` text with brace-free strings is one brace-delimited group. Its opening brace is the only `{` and its closing brace the only `}`. |
| Objects.MembersEnd | main.cpp:99-164 | The members of a `toJson` text end with the closing `}`. |
| Arrays.SplitArray | main.cpp:219-250 | Text not framed by `[` and `]` gives no fragments. There are fewer fragments than characters, and every fragment is trimmed, non-empty and holds a `{`. |
| Arrays.Pieces | main.cpp:226-237 | The brace-depth comma split never gives more pieces than the content has characters plus one. |
| Arrays.PiecesEmpty | main.cpp:226-237 | The split gives no piece exactly when there is nothing to split, as `start < content.length()` decides for the last piece. |
| Arrays.CleanShorter | main.cpp:239-248 | Trimming and `remove_if` never add a piece. |
| Arrays.CleanKeepsAll | main.cpp:239-248 | Every piece that is non-empty and holds a `{` after trimming survives, in its trimmed form. |
| Arrays.ArrayText | main.cpp:297-306 | A written array starts with `[` and a line break and ends with `]`. It is exactly `[`, a line break and `]` when there are no records. |
| Arrays.JoinPieces | main.cpp:226-237 | The pieces cut at top-level commas, joined back with commas, give the array content again: nothing is lost or reordered. |
| Arrays.ScanObject | main.cpp:228-236 | A flat object is never cut: the splitter takes it whole into the current piece. |
| Arrays.CleanFragments | main.cpp:239-248 | After trimming and `remove_if`, only trimmed non-empty pieces holding a `{` remain. |
| Arrays.SplitLines | main.cpp:300-305 | The lines `saveData` writes split back into their objects, in order. |
| Arrays.SplitArrayText | main.cpp:219-250 | `parseArray` gives back, in order, every array of flat objects that `writeVector` writes. |
| Entities.ProductJson | main.cpp:130-140 | `Product::toJson` writes one object, opened by `{` and closed by `}`. |
| Entities.UserJson | main.cpp:157-164 | `User::toJson` writes one object, opened by `{` and closed by `}`. |
| Entities.ReviewJson | main.cpp:99-108 | `Review::toJson` writes one object, opened by `{` and closed by `}`. |
| Entities.DecodeProduct | main.cpp:254-263 | A product fragment is skipped exactly when its `id` fails `stoi` or its `price` fails `stod`. Otherwise the product has the parsed id and price and the name and category as extracted. |
| Entities.DecodeUser | main.cpp:266-273 | A user fragment is skipped exactly when its `id` fails `stoi`. Otherwise the user has the parsed id and the name as extracted. |
| Entities.DecodeReview | main.cpp:276-285 | A review fragment is skipped exactly when one of `user_id`, `product_id` and `rating` fails `stoi`. Otherwise the review has the three parsed numbers and the comment as extracted. |
| Entities.ProductValues | main.cpp:130-140 | Each of the four values read from a saved product is the text its member was written with. |
| Entities.ReviewValues | main.cpp:99-108 | Each of the four values read from a saved review is the text its member was written with. |
| Entities.ProductRoundTrip | main.cpp:254-264 | Loading a saved product gives back its id and price, and its name and category in escaped form, when neither holds a quote. |
| Entities.UserRoundTrip | main.cpp:266-274 | Loading a saved user gives back its id, and its name in escaped form, when the name holds no quote. |
| Entities.ReviewRoundTrip | main.cpp:276-285 | Loading a saved review gives back its ids and rating, and its comment in escaped form, when the comment holds no quote. |
| Entities.ProductRoundTripPlain | main.cpp:130-140 | A product whose strings need no escaping loads back unchanged. |
| Entities.UserRoundTripPlain | main.cpp:157-164 | A user whose name needs no escaping loads back unchanged. |
| Entities.ReviewRoundTripPlain | main.cpp:99-108 | A review whose comment needs no escaping loads back unchanged. |
| Entities.QuoteInNameIsCut | main.cpp:56-69 | A name `x"y` is saved as `x\"y` and reloads as the escaped `x` plus a backslash: the rest is lost. |
| Catalog.ProductIndex | main.cpp:331-336 | Gives the first product with the id. There is none exactly when no product has that id. |
| Catalog.UserIndex | main.cpp:337-342 | Gives the first user with the id. There is none exactly when no user has that id. |
| Catalog.HasReviewed | main.cpp:345-352 | True exactly when some review pairs the user with the product. |
| Catalog.ReviewedProductIds | main.cpp:355-363 | Holds every product the user reviewed, and no more entries than there are reviews. It is empty exactly when the user has no review. |
| Catalog.ReviewedIdsSnoc | main.cpp:355-363 | A review appended at the end adds its product at the end of the user's list, and only if the review is by that user. |
| Catalog.LastReviewedIsLastId | main.cpp:532-537 | The last id of the user's reviewed list is the product of the user's last review. |
| Catalog.RatingTally | main.cpp:319-326 | The count is at most the number of reviews, and 0 exactly when none is for the product. With ratings 1 to 5 the sum lies between count and 5 × count. |
| Catalog.TallyExact | main.cpp:319-326 | The count is the number of the product's reviews and the sum is the sum of exactly their ratings. |
| Catalog.TallySnoc | main.cpp:321-326 | An appended review adds its rating and one to the count if it is for the product, and otherwise changes nothing. |
| Catalog.AverageIsMean | main.cpp:326 | The average of a tally times its count is its sum, also for no reviews, where the sum is 0. |
| Catalog.AverageOf | main.cpp:327 | The average times the count is the sum, the average is 0 with no reviews, and it lies between 1 and 5 when every rating does. |
| Catalog.AverageRating | main.cpp:317-327 | The average is the mean of the product's tally: times the count it gives the sum. It is 0 for a product without reviews. When the product has a review and every rating is 1 to 5, it lies between 1 and 5. The recommender ranks by this function. |
| Catalog.AddUser | main.cpp:423-431 | The new user gets the current counter as id and is appended. The counter moves on by one, and nothing else changes. |
| Catalog.AddProduct | main.cpp:433-441 | The new product gets the current counter as id and is appended. The counter moves on by one, and nothing else changes. |
| Catalog.AddUserFresh | main.cpp:426-427 | While every user id is below the counter, the new id is unused. The finder then locates the new user at the end, and the store stays counted and consistent. |
| Catalog.AddProductFresh | main.cpp:436-437 | While every product id is below the counter, the new id is unused. The finder then locates the new product at the end, and the store stays counted and consistent. |
| Catalog.AddReview | main.cpp:461-475 | Errors come in the source's order: missing user, then missing product, then a rating outside 1 to 5, then a pair already reviewed. Each error occurs exactly under its condition. It succeeds exactly when all four checks pass, and then the review is appended and nothing else changes. |
| Catalog.UniqueSnoc | main.cpp:468-471 | Appending a review for a pair not yet reviewed keeps every user–product pair unique. |
| Catalog.AddReviewKeeps | main.cpp:461-475 | An accepted review keeps the store consistent and counted: valid ratings, existing referents, unique pairs. |
| Catalog.AddReviewTally | main.cpp:471-474 | An accepted review adds its rating to the product's sum and one to its count, which is the new average the response reports. |
| Catalog.AddReviewTwice | main.cpp:468 | Once a review is accepted, any second review of the same pair with a valid rating is refused as already reviewed. |
| Catalog.Filter | main.cpp:491-495 | The erase–`remove_if` idiom keeps exactly the entries the predicate accepts. |
| Catalog.FilterAppend | main.cpp:491-495 | Filtering keeps relative order. |
| Catalog.UniqueFilter | main.cpp:491-495 | Removing reviews keeps the remaining pairs unique. |
| Catalog.DeleteUser | main.cpp:477-499 | Fails exactly when no user has the id. Otherwise it removes only the first such user and the reviews by that id, and leaves products and counters alone. The surviving reviews are those the `remove_if` keeps, in their old order and with their multiplicity. |
| Catalog.DeleteProduct | main.cpp:501-523 | Fails exactly when no product has the id. Otherwise it removes only the first such product and the reviews of that id, and leaves users and counters alone. The surviving reviews are those the `remove_if` keeps, in their old order and with their multiplicity. |
| Catalog.DeleteUserKeeps | main.cpp:488-495 | The cascade keeps the store consistent and counted, and leaves no review by the deleted id. |
| Catalog.DeleteProductKeeps | main.cpp:512-519 | The cascade keeps the store consistent and counted, and leaves no review of the deleted id. |
| Recommend.Candidates | main.cpp:544-550 | The catalog products of the target category that the user has not reviewed, in catalog order and with their multiplicity: the filter of the catalog by that condition. |
| Recommend.Insert | main.cpp:557-559 | Inserting into a list ordered from the highest average down keeps it ordered and adds exactly the new product. |
| Recommend.SortByKey | main.cpp:557-559 | The result is ordered from the highest average down and is a permutation of the candidates. |
| Recommend.TopOfDescending | main.cpp:556-587 | The first three of any arrangement of the candidates from the highest average down form a ranking. Their length is min(3, candidates), they are ordered and drawn from the candidates, and no candidate left out is rated above one taken. |
| Recommend.TopThree | main.cpp:552-587 | No candidates give an empty list. Otherwise the list is a ranking of the candidates. |
| Recommend.Target | main.cpp:528-541 | The target product is a catalog product. |
| Recommend.TargetOutcome | main.cpp:528-541 | The target step fails for a missing user, then for a user with no review, then when the last reviewed product is gone. Each error occurs exactly under its condition. Otherwise the target is the product of the user's last review. |
| Recommend.Recommend | main.cpp:525-590 | Fails exactly when the target step does, with its error. Otherwise it gives a ranking of the target category's unreviewed products. |
| Recommend.RecommendsUnreviewed | main.cpp:545-548 | Everything recommended is a catalog product the user has not reviewed. |
| Persistence.Decoded | main.cpp:255-264 | Decoding fragments never yields more records than fragments. |
| Persistence.ReadAll | main.cpp:206-216 | A file that cannot be opened or is empty reads as an array with no fragments. Any other file reads as written. |
| Persistence.DecodedSkip | main.cpp:256-263 | A fragment that fails to decode is skipped, and the fragments around it still load, in order. |
| Persistence.DecodedEach | main.cpp:254-285 | Fragments that each decode give exactly their records, in order. |
| Persistence.Advance | main.cpp:261 | The counter never goes down and ends above every loaded id. It either keeps its value or ends one past a loaded id. |
| Persistence.Load | main.cpp:200-292 | The loaded store is counted. It seeds and writes exactly when no fragment of any of the three files decodes. When it seeds, the store is the default data and that data is written out. Otherwise the store holds at least one record, and the counters are never below the process's own. |
| Persistence.SeedWhenNothingDecodes | main.cpp:287-291 | When no fragment of any file decodes, loading gives the default data, saves it, and sets the counters to exactly 1004 and 102. |
| Persistence.SeedWhenMissing | main.cpp:206-214 | With all three files missing, loading seeds and saves the default data. |
| Persistence.NoSeedWhenSomethingDecodes | main.cpp:252-291 | When some fragment decodes, nothing is seeded or written. The store is then exactly the decoded products, users and reviews, in file order, with each counter advanced past the loaded ids. |
| Persistence.DefaultsConsistent | main.cpp:179-194 | The default data has valid ratings, existing referents and unique pairs, and its ids are below the counters 1004 and 102. |
| Persistence.DefaultsContents | main.cpp:179-194 | The default products are 1000 to 1003 and the users 100 and 101, in that order, with four reviews. The counters 1004 and 102 are exactly what counting past those ids from 1000 and 100 gives. |
| Persistence.ReadSaved | main.cpp:212-215 | A saved array is never an empty file, so it is read back as written. |
| Persistence.Save | main.cpp:295-315 | Every one of the three files is written, and none of them reads back as a missing or empty file. |
| Persistence.ProductsReadBack | main.cpp:297-306 | Saved products load back unchanged and in order. |
| Persistence.UsersReadBack | main.cpp:297-306 | Saved users load back unchanged and in order. |
| Persistence.ReviewsReadBack | main.cpp:297-306 | Saved reviews load back unchanged and in order. |
| Persistence.SaveLoad | main.cpp:295-315 | Saving a non-empty store whose strings need no escaping and hold no brace, then loading it, gives back every record in order. The counters are advanced past the loaded ids. |
| Persistence.DeleteProductStorable | main.cpp:512-519 | Deleting a product keeps a savable store savable. |
| Persistence.CounterAfterLargest | main.cpp:261 | A fresh process loading a saved store counts on from one past the last product's id, when that id is the largest and at least 1000. |
| Persistence.CounterAfterDelete | main.cpp:501-523 | After the product with the largest id is deleted and the store saved, a fresh process's counter is at most that id. |
| Persistence.IdReuse | main.cpp:433-441 | Before the deletion, the next product gets the largest id plus one. After deleting that product and saving, the next process hands out an id no larger than the deleted one. |
| Persistence.IdReused | main.cpp:433-441 | When the deleted product had the largest id and the product before it the next smaller one, the next process hands out exactly the deleted id again. |

## Left out

- File I/O, `ofstream`/`ifstream` and write failures: the three files are a `Files` value of optional
  texts, where `None` is a file that cannot be opened. A failed write is not modelled.
- The command-line `main`, argument parsing, and the response envelopes the operations return.
  Operations return the new store or a `Catalog.Error`.
- `getProductsJson`, `getUsersJson` and `getReviewsJson`: they are output formatting only.
- `purchaseProduct` and `rateProduct`: the first only checks existence, and the second only calls
  `addReview` with a fixed comment.
- Concurrency between processes: each operation is one pure step from loaded files to a new store.
- Numbers.ParsePrice: `stod` is modelled only for plain decimals, in cents, and drops digits after the
  second decimal. Exponents, hexadecimal, `inf` and `nan` are not modelled.
- Numbers.PriceText: prices are whole cents, not `double`s, so binary rounding of prices is not
  modelled.
- Catalog.AverageRating: the average is an exact real number, not a `double`. The sort therefore
  compares exact averages, with no rounding ties.
- Catalog.AddUser: the counter is an unbounded integer, so the 32-bit overflow of `nextUserId++` is
  not modelled.
- Catalog.AddProduct: the counter is an unbounded integer, so the 32-bit overflow of
  `nextProductId++` is not modelled.
- Persistence.Advance: `id + 1` is not wrapped at the top of the `int` range.
- Catalog.RatingTally: the rating sum is not wrapped at the top of the `int` range.
- Recommend.SortByKey: one particular sort (insertion) is used, where `std::sort` may order ties
  either way. The properties are proved for every descending arrangement (`Recommend.TopOfDescending`),
  not only this one.
- Entities.ProductRoundTrip: stated only for strings without a quote.
  `Entities.QuoteInNameIsCut` shows what happens with one.
- Persistence.SaveLoad: stated only for stores whose strings need no escaping and hold no `{` or `}`,
  and whose ids and ratings fit an `int`. A brace inside a string changes how `parseArray` counts
  depth, and an escaped string loads back in escaped form.
- Text is a sequence of Unicode characters, where the program scans and escapes bytes. Every character
  the codec treats specially is ASCII, so the two agree on the characters that matter.
- Codec.Escape: control characters other than newline, carriage return and tab are written
  unescaped, as the program does. Strict JSON forbids them, so the decoder in `Codec.DecodeEscapes`
  is the inverse of this escaping, not a general JSON reader.
- Arrays.SplitArray: the splitter is written with an accumulated current piece instead of a start
  index. A last piece is kept exactly when it is non-empty, as `start < content.length()` decides.

=== FILE: arrays.dfy ===
/**
 * The array splitter of `loadData` (main.cpp:219-250) and the array layout that
 * `saveData` writes (main.cpp:297-306). The splitter counts braces and splits at
 * commas where the count is zero; it does not look at quotes.
 */
module Arrays {
  import opened Text
  import opened Objects

  /** The count after one character: `{` raises it, `}` lowers it; it may go below zero. */
  function Depth(depth: int, c: char): int {
    if c == '{' then depth + 1 else if c == '}' then depth - 1 else depth
  }

  /**
   * The raw pieces of the array's content: `cur` is the piece being built, `depth`
   * the brace count so far. A comma seen with the count at zero ends the piece;
   * the last piece is kept only when it is not empty.
   */
  function Pieces(s: string, depth: int, cur: string): (r: seq<string>)
    ensures |r| <= |s| + 1
  {
    if s == [] then
      if cur != [] then [cur] else []
    else
      var d := Depth(depth, s[0]);
      if d == 0 && s[0] == ',' then [cur] + Pieces(s[1..], d, [])
      else Pieces(s[1..], d, cur + [s[0]])
  }

  /** A fragment the splitter keeps: not empty and holding an opening brace. */
  predicate Kept(t: string) {
    t != [] && '{' in t
  }

  /** What a returned fragment looks like: kept, and trimmed at both ends. */
  predicate Fragment(t: string) {
    Kept(t) && !IsBlank(t[0]) && !IsBlank(t[|t| - 1])
  }

  /** Trims every piece and drops those that are empty or have no `{`. */
  function Clean(items: seq<string>): seq<string> {
    if items == [] then []
    else
      var t := Trim(items[0]);
      if Kept(t) then [t] + Clean(items[1..]) else Clean(items[1..])
  }

  /** Every piece that is kept after trimming survives cleaning, trimmed. */
  lemma {:induction false} CleanKeepsAll(items: seq<string>)
    ensures forall i :: 0 <= i < |items| && Kept(Trim(items[i])) ==> Trim(items[i]) in Clean(items)
  {
    if items != [] {
      var rest := Clean(items[1..]);
      CleanKeepsAll(items[1..]);
      forall i | 0 <= i < |items| && Kept(Trim(items[i])) ensures Trim(items[i]) in Clean(items) {
        if i == 0 {
          assert Clean(items) == [Trim(items[0])] + rest;
        } else {
          assert items[i] == items[1..][i - 1];
          assert Trim(items[i]) in rest;
          if Kept(Trim(items[0])) {
            assert Clean(items) == [Trim(items[0])] + rest;
          }
        }
      }
    }
  }

  /** Cleaning never adds a piece. */
  lemma {:induction false} CleanShorter(items: seq<string>)
    ensures |Clean(items)| <= |items|
  {
    if items != [] {
      CleanShorter(items[1..]);
    }
  }

  /** A trimmed piece that is kept is a fragment. */
  lemma TrimmedFragment(x: string)
    requires Kept(Trim(x))
    ensures Fragment(Trim(x))
  {
  }

  lemma ConsFragments(t: string, rest: seq<string>)
    requires Fragment(t) && forall i :: 0 <= i < |rest| ==> Fragment(rest[i])
    ensures forall i :: 0 <= i < |[t] + rest| ==> Fragment(([t] + rest)[i])
  {
    var r := [t] + rest;
    assert forall i :: 1 <= i < |r| ==> r[i] == rest[i - 1];
  }

  /** Cleaning leaves only trimmed fragments with a `{`. */
  lemma {:induction false} CleanFragments(items: seq<string>)
    ensures forall i :: 0 <= i < |Clean(items)| ==> Fragment(Clean(items)[i])
  {
    if items != [] {
      CleanFragments(items[1..]);
      if Kept(Trim(items[0])) {
        TrimmedFragment(items[0]);
        ConsFragments(Trim(items[0]), Clean(items[1..]));
      }
    }
  }

  /** `parseArray`: a text that is not `[...]` gives no fragments. */
  function SplitArray(raw: string): (r: seq<string>)
    ensures |raw| < 2 || raw[0] != '[' || raw[|raw| - 1] != ']' ==> r == []
    ensures |r| < |raw| || r == []
    ensures forall i :: 0 <= i < |r| ==> Fragment(r[i])
  {
    if |raw| < 2 || raw[0] != '[' || raw[|raw| - 1] != ']' then []
    else
      var items := Pieces(raw[1..|raw| - 1], 0, []);
      CleanShorter(items);
      CleanFragments(items);
      Clean(items)
  }

  /** The lines of a saved array: each object on its own line, all but the last followed by `,`. */
  function Lines(objs: seq<string>): string {
    if objs == [] then ""
    else if |objs| == 1 then objs[0] + "\n"
    else objs[0] + ",\n" + Lines(objs[1..])
  }

  /** `writeVector`: `[`, a line break, the lines, then `]`; no objects give `[` and `]` on two lines. */
  function ArrayText(objs: seq<string>): (r: string)
    ensures |r| >= 3 && r[0] == '[' && r[1] == '\n' && r[|r| - 1] == ']'
    ensures objs == [] <==> r == "[\n]"
  {
    "[\n" + Lines(objs) + "]"
  }

  /** There are no pieces only when there was nothing to split. */
  lemma {:induction false} PiecesEmpty(s: string, depth: int, cur: string)
    ensures Pieces(s, depth, cur) == [] <==> s == [] && cur == []
    decreases |s|
  {
    if s != [] {
      var d := Depth(depth, s[0]);
      if !(d == 0 && s[0] == ',') {
        PiecesEmpty(s[1..], d, cur + [s[0]]);
      }
    }
  }

  /** Pieces joined back with the separator that ended each of them. */
  function Join(ps: seq<string>): string {
    if ps == [] then ""
    else if |ps| == 1 then ps[0]
    else ps[0] + "," + Join(ps[1..])
  }

  /** Joining a piece in front of at least one more puts a comma between them. */
  lemma JoinCons(cur: string, rs: seq<string>)
    requires rs != []
    ensures Join([cur] + rs) == cur + "," + Join(rs)
  {
    var r := [cur] + rs;
    assert r[0] == cur && r[1..] == rs;
  }

  lemma CommaRegroup(cur: string, s: string)
    requires s != [] && s[0] == ','
    ensures cur + "," + s[1..] == cur + s
  {
    assert s == "," + s[1..];
  }

  /** The comma step of `JoinPieces`: the piece ended by the comma, then the pieces after it. */
  lemma JoinAtComma(cur: string, s: string, rs: seq<string>)
    requires s != [] && s[0] == ','
    requires rs == [] <==> s[1..] == []
    requires Join(rs) == s[1..] || Join(rs) + "," == s[1..]
    ensures var j := Join([cur] + rs); j == cur + s || j + "," == cur + s
  {
    CommaRegroup(cur, s);
    if rs == [] {
      assert [cur] + rs == [cur];
    } else {
      JoinCons(cur, rs);
      ConcatAssoc(cur + ",", Join(rs), ",");
    }
  }

  /**
   * Splitting loses nothing but the separating commas: the pieces, joined with commas,
   * give back the content, short of a final comma after which nothing followed.
   */
  lemma {:induction false} JoinPieces(s: string, depth: int, cur: string)
    ensures var j := Join(Pieces(s, depth, cur)); j == cur + s || j + "," == cur + s
    decreases |s|
  {
    if s != [] {
      var d := Depth(depth, s[0]);
      if d == 0 && s[0] == ',' {
        JoinPieces(s[1..], d, []);
        PiecesEmpty(s[1..], d, []);
        assert [] + s[1..] == s[1..];
        JoinAtComma(cur, s, Pieces(s[1..], d, []));
      } else {
        JoinPieces(s[1..], d, cur + [s[0]]);
        assert (cur + [s[0]]) + s[1..] == cur + s;
      }
    }
  }

  predicate NoBraces(s: string) {
    '{' !in s && '}' !in s
  }

  /** Text with no brace, and no comma while the count is zero, only extends the current piece. */
  lemma {:induction false} ScanPlain(s: string, depth: int, cur: string, rest: string)
    requires NoBraces(s) && (depth == 0 ==> ',' !in s)
    ensures Pieces(s + rest, depth, cur) == Pieces(rest, depth, cur + s)
    decreases |s|
  {
    if s == [] {
      assert s + rest == rest && cur + s == cur;
    } else {
      var t := s + rest;
      assert t[0] == s[0] && t[1..] == s[1..] + rest;
      assert s[0] in s;
      ScanPlain(s[1..], depth, cur + [s[0]], rest);
      assert (cur + [s[0]]) + s[1..] == cur + s;
    }
  }

  /** A flat object starting at count zero is taken whole into the current piece. */
  lemma ScanObject(o: string, cur: string, rest: string)
    requires FlatObject(o)
    ensures Pieces(o + rest, 0, cur) == Pieces(rest, 0, cur + o)
  {
    var mid := o[1..|o| - 1];
    assert NoBraces(mid) by {
      forall i | 0 <= i < |mid| ensures mid[i] != '{' && mid[i] != '}' {
        assert mid[i] == o[i + 1];
      }
    }
    var t := o + rest;
    assert t[0] == '{';
    assert t[1..] == mid + ("}" + rest);
    ScanPlain(mid, 1, cur + "{", "}" + rest);
    assert ("}" + rest)[1..] == rest;
    assert (cur + "{") + mid + "}" == cur + o;
  }

  lemma NewlineBlank()
    ensures NoBraces("\n") && ',' !in "\n" && IsBlank("\n"[0]) && |"\n"| == 1
  {
  }

  /** Cleaning a piece list one piece at a time. */
  lemma CleanCons(x: string, rest: seq<string>)
    ensures Clean([x] + rest) == Clean([x]) + Clean(rest)
  {
    assert ([x] + rest)[0] == x && ([x] + rest)[1..] == rest;
    assert [x][1..] == [];
  }

  /** A piece made of a flat object with blanks around it cleans to the object. */
  lemma CleanFramed(a: string, o: string, b: string)
    requires FlatObject(o)
    requires forall i :: 0 <= i < |a| ==> IsBlank(a[i])
    requires forall i :: 0 <= i < |b| ==> IsBlank(b[i])
    ensures Clean([a + o + b]) == [o]
  {
    TrimKeeps(a, o, b);
    assert o[0] == '{';
    assert [a + o + b][1..] == [];
  }

  /** A text of blanks only cleans to nothing. */
  lemma CleanBlank(a: string)
    requires forall i :: 0 <= i < |a| ==> IsBlank(a[i])
    ensures Clean([a]) == []
  {
    assert [a][1..] == [];
  }

  /** The saved line of a flat object that is not the last. */
  lemma PiecesOfLine(o: string, after: string)
    requires FlatObject(o)
    ensures Pieces("\n" + (o + ("," + after)), 0, []) == ["\n" + o] + Pieces(after, 0, [])
  {
    NewlineBlank();
    ScanPlain("\n", 0, [], o + ("," + after));
    assert [] + "\n" == "\n";
    ScanObject(o, "\n", "," + after);
    assert ("," + after)[0] == ',' && ("," + after)[1..] == after;
  }

  /** The saved line of the last flat object. */
  lemma PiecesOfLastLine(o: string)
    requires FlatObject(o)
    ensures Pieces("\n" + (o + "\n"), 0, []) == ["\n" + o + "\n"]
  {
    NewlineBlank();
    ScanPlain("\n", 0, [], o + "\n");
    assert [] + "\n" == "\n";
    ScanObject(o, "\n", "\n");
    ScanPlain("\n", 0, "\n" + o, []);
    assert "\n" + [] == "\n";
  }

  /** A saved line that is not the last cleans to its object, then to whatever follows. */
  lemma SplitLine(o: string, after: string)
    requires FlatObject(o)
    ensures Clean(Pieces("\n" + (o + ("," + after)), 0, [])) == [o] + Clean(Pieces(after, 0, []))
  {
    PiecesOfLine(o, after);
    CleanCons("\n" + o, Pieces(after, 0, []));
    NewlineBlank();
    CleanFramed("\n", o, []);
    assert "\n" + o + [] == "\n" + o;
  }

  /** The last saved line cleans to its object. */
  lemma SplitLastLine(o: string)
    requires FlatObject(o)
    ensures Clean(Pieces("\n" + (o + "\n"), 0, [])) == [o]
  {
    NewlineBlank();
    PiecesOfLastLine(o);
    CleanFramed("\n", o, "\n");
  }

  /** An empty saved array has only a line break inside, which cleans to nothing. */
  lemma SplitNoLines()
    ensures Clean(Pieces("\n", 0, [])) == []
  {
    NewlineBlank();
    ScanPlain("\n", 0, [], []);
    assert "\n" + [] == "\n" && [] + "\n" == "\n";
    CleanBlank("\n");
  }

  /** The content of a saved array splits back into its objects. */
  lemma {:induction false} SplitLines(objs: seq<string>)
    requires forall i :: 0 <= i < |objs| ==> FlatObject(objs[i])
    ensures Clean(Pieces("\n" + Lines(objs), 0, [])) == objs
    decreases |objs|
  {
    if objs == [] {
      SplitNoLines();
    } else if |objs| == 1 {
      assert FlatObject(objs[0]);
      SplitLastLine(objs[0]);
    } else {
      var o := objs[0];
      assert FlatObject(o);
      var after := "\n" + Lines(objs[1..]);
      assert "\n" + Lines(objs) == "\n" + (o + ("," + after));
      SplitLine(o, after);
      SplitLines(objs[1..]);
      assert [o] + objs[1..] == objs;
    }
  }

  /** `parseArray` reads back, in order, every array of flat objects that `saveData` writes. */
  lemma SplitArrayText(objs: seq<string>)
    requires forall i :: 0 <= i < |objs| ==> FlatObject(objs[i])
    ensures SplitArray(ArrayText(objs)) == objs
  {
    var raw := ArrayText(objs);
    assert raw[1..|raw| - 1] == "\n" + Lines(objs);
    SplitLines(objs);
  }
}

=== FILE: basics.dfy ===
/** Small shared vocabulary: optional values, results, and the C++ `int` range. */
module Basics {

  datatype Option<+T> = None | Some(value: T)

  /** A success value or one of the catalog's structured errors. */
  datatype Result<+T, +E> = Success(value: T) | Failure(error: E)

  const INT_MIN: int := -0x8000_0000
  const INT_MAX: int := 0x7FFF_FFFF

  /** The value fits a 32-bit C++ `int`. */
  predicate IsInt32(n: int) {
    INT_MIN <= n <= INT_MAX
  }

  function Max(a: int, b: int): int {
    if a < b then b else a
  }

  function Min(a: int, b: int): int {
    if a < b then a else b
  }
}

=== FILE: catalog.dfy ===
/**
 * The in-memory catalog held by `RecommendationSystem` (main.cpp:167-174): the finders
 * (main.cpp:331-363), the average rating (main.cpp:318-328), and the operations that
 * add and delete entities (main.cpp:423-523). Every operation returns a new catalog.
 */
module Catalog {
  import opened Basics
  import opened Entities

  datatype Store = Store(
    products: seq<Product>,
    users: seq<User>,
    reviews: seq<Review>,
    nextProductId: int,
    nextUserId: int)

  /** The failures the catalog reports, one per error message of the program. */
  datatype Error =
    | UserNotFound
    | ProductNotFound
    | InvalidRating
    | AlreadyReviewed
    | NoReviewHistory
    | LastProductMissing

  /** `findProductById`: the position of the first product with the id, if any. */
  function ProductIndex(ps: seq<Product>, id: int): (r: Option<nat>)
    ensures r.Some? ==> r.value < |ps| && ps[r.value].id == id
    ensures r.Some? ==> forall i :: 0 <= i < r.value ==> ps[i].id != id
    ensures r.None? <==> forall i :: 0 <= i < |ps| ==> ps[i].id != id
  {
    if ps == [] then None
    else if ps[0].id == id then Some(0)
    else match ProductIndex(ps[1..], id)
      case None => None
      case Some(k) => Some(k + 1)
  }

  /** `findUserById`: the position of the first user with the id, if any. */
  function UserIndex(us: seq<User>, id: int): (r: Option<nat>)
    ensures r.Some? ==> r.value < |us| && us[r.value].id == id
    ensures r.Some? ==> forall i :: 0 <= i < r.value ==> us[i].id != id
    ensures r.None? <==> forall i :: 0 <= i < |us| ==> us[i].id != id
  {
    if us == [] then None
    else if us[0].id == id then Some(0)
    else match UserIndex(us[1..], id)
      case None => None
      case Some(k) => Some(k + 1)
  }

  /** `hasUserReviewed`: some review pairs the user with the product. */
  function HasReviewed(rs: seq<Review>, uid: int, pid: int): (b: bool)
    ensures b <==> exists i :: 0 <= i < |rs| && rs[i].userId == uid && rs[i].productId == pid
  {
    if rs == [] then false
    else if rs[0].userId == uid && rs[0].productId == pid then true
    else
      var b := HasReviewed(rs[1..], uid, pid);
      assert b ==> exists i :: 1 <= i < |rs| && rs[i].userId == uid && rs[i].productId == pid by {
        if b {
          var k :| 0 <= k < |rs[1..]| && rs[1..][k].userId == uid && rs[1..][k].productId == pid;
          assert rs[k + 1] == rs[1..][k];
        }
      }
      b
  }

  /** `getReviewedProductIds`: the products the user reviewed, in review order. */
  function ReviewedProductIds(rs: seq<Review>, uid: int): (r: seq<int>)
    ensures |r| <= |rs|
    ensures r == [] <==> forall i :: 0 <= i < |rs| ==> rs[i].userId != uid
    ensures forall i :: 0 <= i < |rs| && rs[i].userId == uid ==> rs[i].productId in r
  {
    if rs == [] then []
    else
      var rest := ReviewedProductIds(rs[1..], uid);
      assert forall i :: 1 <= i < |rs| ==> rs[i] == rs[1..][i - 1];
      if rs[0].userId == uid then [rs[0].productId] + rest else rest
  }

  /** The product of the user's last review in review order, found scanning from the end. */
  function LastReviewed(rs: seq<Review>, uid: int): (r: Option<int>)
    ensures r.None? <==> forall i :: 0 <= i < |rs| ==> rs[i].userId != uid
  {
    if rs == [] then None
    else if rs[|rs| - 1].userId == uid then Some(rs[|rs| - 1].productId)
    else
      var r := LastReviewed(rs[..|rs| - 1], uid);
      assert forall i :: 0 <= i < |rs| - 1 ==> rs[i] == rs[..|rs| - 1][i];
      r
  }

  /** Collecting the reviewed products of a longer review list extends the collection. */
  lemma {:induction false} ReviewedIdsSnoc(rs: seq<Review>, x: Review, uid: int)
    ensures ReviewedProductIds(rs + [x], uid)
      == ReviewedProductIds(rs, uid) + (if x.userId == uid then [x.productId] else [])
  {
    if rs == [] {
      assert rs + [x] == [x] && [x][1..] == [];
    } else {
      assert (rs + [x])[0] == rs[0] && (rs + [x])[1..] == rs[1..] + [x];
      ReviewedIdsSnoc(rs[1..], x, uid);
    }
  }

  /**
   * The product the recommender starts from, the last of the collected ids, is the
   * product of the user's last review.
   */
  lemma {:induction false} LastReviewedIsLastId(rs: seq<Review>, uid: int)
    ensures var ids := ReviewedProductIds(rs, uid);
      ids != [] ==> LastReviewed(rs, uid) == Some(ids[|ids| - 1])
  {
    if rs != [] {
      var init := rs[..|rs| - 1];
      var x := rs[|rs| - 1];
      assert init + [x] == rs;
      ReviewedIdsSnoc(init, x, uid);
      if x.userId != uid {
        LastReviewedIsLastId(init, uid);
      }
    }
  }

  /** A review about the product. */
  function ForProduct(pid: int): Review -> bool {
    (r: Review) => r.productId == pid
  }

  /** The ratings of the reviews, added up. */
  function RatingSum(rs: seq<Review>): int {
    if rs == [] then 0 else rs[0].rating + RatingSum(rs[1..])
  }

  /** The running sum and count `calculateAverageRating` keeps for one product. */
  datatype Tally = Tally(sum: int, count: nat)

  /** The ratings of the product's reviews, summed and counted. */
  function RatingTally(rs: seq<Review>, pid: int): (t: Tally)
    ensures t.count <= |rs|
    ensures t.count == 0 <==> forall i :: 0 <= i < |rs| ==> rs[i].productId != pid
    ensures (forall i :: 0 <= i < |rs| ==> 1 <= rs[i].rating <= 5) ==> t.count <= t.sum <= 5 * t.count
  {
    if rs == [] then Tally(0, 0)
    else
      var t := RatingTally(rs[1..], pid);
      assert forall i :: 1 <= i < |rs| ==> rs[i] == rs[1..][i - 1];
      if rs[0].productId == pid then Tally(t.sum + rs[0].rating, t.count + 1) else t
  }

  /** The tally counts exactly the product's reviews and adds up exactly their ratings. */
  lemma {:induction false} TallyExact(rs: seq<Review>, pid: int)
    ensures RatingTally(rs, pid).count == |Filter(rs, ForProduct(pid))|
    ensures RatingTally(rs, pid).sum == RatingSum(Filter(rs, ForProduct(pid)))
  {
    if rs != [] {
      TallyExact(rs[1..], pid);
      if ForProduct(pid)(rs[0]) {
        var f := [rs[0]] + Filter(rs[1..], ForProduct(pid));
        assert f[0] == rs[0] && f[1..] == Filter(rs[1..], ForProduct(pid));
      }
    }
  }

  /** A product without reviews has nothing summed. */
  lemma {:induction false} TallyEmpty(rs: seq<Review>, pid: int)
    ensures RatingTally(rs, pid).count == 0 ==> RatingTally(rs, pid).sum == 0
  {
    if rs != [] {
      TallyEmpty(rs[1..], pid);
    }
  }

  /** A review added at the end counts towards its own product only. */
  lemma {:induction false} TallySnoc(rs: seq<Review>, x: Review, pid: int)
    ensures var t := RatingTally(rs, pid);
      RatingTally(rs + [x], pid) == if x.productId == pid then Tally(t.sum + x.rating, t.count + 1) else t
  {
    if rs == [] {
      assert rs + [x] == [x] && [x][1..] == [];
    } else {
      assert (rs + [x])[0] == rs[0] && (rs + [x])[1..] == rs[1..] + [x];
      TallySnoc(rs[1..], x, pid);
    }
  }

  /** The average a tally stands for: sum over count, and 0 for no reviews. */
  function Average(t: Tally): real {
    if t.count == 0 then 0.0 else t.sum as real / t.count as real
  }

  /** The average times the count is the sum, and ratings of 1 to 5 average between 1 and 5. */
  lemma AverageOf(t: Tally)
    ensures t.count > 0 ==> Average(t) * t.count as real == t.sum as real
    ensures t.count == 0 ==> Average(t) == 0.0
    ensures t.count > 0 && t.count <= t.sum <= 5 * t.count ==> 1.0 <= Average(t) <= 5.0
  {
    if t.count > 0 {
      var c := t.count as real;
      var s := t.sum as real;
      DivTimes(s, c);
      if t.count <= t.sum <= 5 * t.count {
        assert c <= s;
        assert s <= (5 * t.count) as real == 5.0 * c;
        Between(s / c, c, s);
      }
    }
  }

  lemma DivTimes(s: real, c: real)
    requires c > 0.0
    ensures (s / c) * c == s
  {
  }

  /** A factor whose product with a positive `c` lies between `c` and `5c` lies between 1 and 5. */
  lemma Between(a: real, c: real, s: real)
    requires c > 0.0 && a * c == s && c <= s <= 5.0 * c
    ensures 1.0 <= a <= 5.0
  {
    if a < 1.0 {
      ScaleLess(a, 1.0, c);
    }
    if a > 5.0 {
      ScaleLess(5.0, a, c);
    }
  }

  lemma ScaleLess(x: real, y: real, c: real)
    requires x < y && c > 0.0
    ensures x * c < y * c
  {
    assert (y - x) * c > 0.0;
  }

  /** `a` is the mean of the tally: times the count it gives the sum, which is 0 when nothing is counted. */
  predicate IsMean(a: real, t: Tally) {
    a * (t.count as real) == t.sum as real
  }

  /** The average of a tally is its mean, also when there are no reviews and the sum is 0. */
  lemma AverageIsMean(t: Tally)
    requires t.count == 0 ==> t.sum == 0
    ensures IsMean(Average(t), t)
  {
    AverageOf(t);
  }

  /** The facts `AverageRating` promises, proved on the tally. */
  lemma AverageFacts(rs: seq<Review>, pid: int)
    ensures (forall i :: 0 <= i < |rs| ==> rs[i].productId != pid) ==> Average(RatingTally(rs, pid)) == 0.0
    ensures (exists i :: 0 <= i < |rs| && rs[i].productId == pid) && (forall i :: 0 <= i < |rs| ==> 1 <= rs[i].rating <= 5)
      ==> 1.0 <= Average(RatingTally(rs, pid)) <= 5.0
  {
    AverageOf(RatingTally(rs, pid));
  }

  /**
   * `calculateAverageRating`: the sum of the product's ratings over their count, and 0
   * when it has none.
   */
  function AverageRating(rs: seq<Review>, pid: int): (a: real)
    ensures IsMean(a, RatingTally(rs, pid))
    ensures (forall i :: 0 <= i < |rs| ==> rs[i].productId != pid) ==> a == 0.0
    ensures (exists i :: 0 <= i < |rs| && rs[i].productId == pid) && (forall i :: 0 <= i < |rs| ==> 1 <= rs[i].rating <= 5)
      ==> 1.0 <= a <= 5.0
  {
    AverageFacts(rs, pid);
    TallyEmpty(rs, pid);
    AverageIsMean(RatingTally(rs, pid));
    Average(RatingTally(rs, pid))
  }

  /** Every id is below the counter of its kind, so the counter names a fresh id. */
  predicate Counted(s: Store) {
    && (forall i :: 0 <= i < |s.products| ==> s.products[i].id < s.nextProductId)
    && (forall i :: 0 <= i < |s.users| ==> s.users[i].id < s.nextUserId)
  }

  /** No two reviews pair the same user with the same product. */
  predicate Unique(rs: seq<Review>) {
    rs == [] || (!HasReviewed(rs[1..], rs[0].userId, rs[0].productId) && Unique(rs[1..]))
  }

  /** A review `addReview` would accept into these users and products: a valid rating and existing referents. */
  predicate Sound(us: seq<User>, ps: seq<Product>, r: Review) {
    1 <= r.rating <= 5 && UserIndex(us, r.userId).Some? && ProductIndex(ps, r.productId).Some?
  }

  /** What `addReview` and the deletions keep: every review sound, and unique pairs. */
  predicate Consistent(s: Store) {
    && (forall i :: 0 <= i < |s.reviews| ==> Sound(s.users, s.products, s.reviews[i]))
    && Unique(s.reviews)
  }

  /** `addUser`: the user gets the current counter as id and is appended; the counter moves on by one. */
  function AddUser(s: Store, name: string): (r: (Store, int))
    ensures r.1 == s.nextUserId && r.0.nextUserId == s.nextUserId + 1
    ensures r.0.users == s.users + [User(r.1, name)]
    ensures r.0.products == s.products && r.0.reviews == s.reviews && r.0.nextProductId == s.nextProductId
  {
    var id := s.nextUserId;
    (s.(users := s.users + [User(id, name)], nextUserId := id + 1), id)
  }

  /** `addProduct`: the product gets the current counter as id and is appended; the counter moves on by one. */
  function AddProduct(s: Store, name: string, category: string, price: int): (r: (Store, int))
    ensures r.1 == s.nextProductId && r.0.nextProductId == s.nextProductId + 1
    ensures r.0.products == s.products + [Product(r.1, name, category, price)]
    ensures r.0.users == s.users && r.0.reviews == s.reviews && r.0.nextUserId == s.nextUserId
  {
    var id := s.nextProductId;
    (s.(products := s.products + [Product(id, name, category, price)], nextProductId := id + 1), id)
  }

  /** A first match stays the first match when more entries are appended. */
  lemma UserIndexAppend(us: seq<User>, more: seq<User>, id: int)
    requires UserIndex(us, id).Some?
    ensures UserIndex(us + more, id) == UserIndex(us, id)
  {
    var k := UserIndex(us, id).value;
    assert forall i :: 0 <= i <= k ==> (us + more)[i] == us[i];
  }

  lemma ProductIndexAppend(ps: seq<Product>, more: seq<Product>, id: int)
    requires ProductIndex(ps, id).Some?
    ensures ProductIndex(ps + more, id) == ProductIndex(ps, id)
  {
    var k := ProductIndex(ps, id).value;
    assert forall i :: 0 <= i <= k ==> (ps + more)[i] == ps[i];
  }

  /**
   * While every user id is below the counter, the id `addUser` hands out is new: the finder
   * then locates the added user, and the catalog stays counted and consistent.
   */
  lemma AddUserFresh(s: Store, name: string)
    requires Counted(s)
    ensures var (t, id) := AddUser(s, name);
      && UserIndex(s.users, id).None?
      && UserIndex(t.users, id) == Some(|s.users|)
      && Counted(t)
      && (Consistent(s) ==> Consistent(t))
  {
    var (t, id) := AddUser(s, name);
    assert t.users[|s.users|].id == id;
    assert forall i :: 0 <= i < |s.users| ==> t.users[i] == s.users[i];
    if Consistent(s) {
      forall i | 0 <= i < |t.reviews| ensures Sound(t.users, t.products, t.reviews[i]) {
        UserIndexAppend(s.users, [User(id, name)], t.reviews[i].userId);
      }
    }
  }

  /** The product counterpart of `AddUserFresh`. */
  lemma AddProductFresh(s: Store, name: string, category: string, price: int)
    requires Counted(s)
    ensures var (t, id) := AddProduct(s, name, category, price);
      && ProductIndex(s.products, id).None?
      && ProductIndex(t.products, id) == Some(|s.products|)
      && Counted(t)
      && (Consistent(s) ==> Consistent(t))
  {
    var (t, id) := AddProduct(s, name, category, price);
    assert t.products[|s.products|].id == id;
    assert forall i :: 0 <= i < |s.products| ==> t.products[i] == s.products[i];
    if Consistent(s) {
      forall i | 0 <= i < |t.reviews| ensures Sound(t.users, t.products, t.reviews[i]) {
        ProductIndexAppend(s.products, [Product(id, name, category, price)], t.reviews[i].productId);
      }
    }
  }

  /** A review appended at the end adds its own pair and no other. */
  lemma {:induction false} HasReviewedSnoc(rs: seq<Review>, x: Review, uid: int, pid: int)
    ensures HasReviewed(rs + [x], uid, pid) <==> HasReviewed(rs, uid, pid) || (x.userId == uid && x.productId == pid)
  {
    if rs == [] {
      assert rs + [x] == [x] && [x][1..] == [];
    } else {
      assert (rs + [x])[0] == rs[0] && (rs + [x])[1..] == rs[1..] + [x];
      HasReviewedSnoc(rs[1..], x, uid, pid);
    }
  }

  /** A review pair that is new can be appended without breaking uniqueness. */
  lemma {:induction false} UniqueSnoc(rs: seq<Review>, x: Review)
    requires Unique(rs) && !HasReviewed(rs, x.userId, x.productId)
    ensures Unique(rs + [x])
  {
    if rs == [] {
      assert [x][1..] == [];
    } else {
      var t := rs + [x];
      assert t[0] == rs[0] && t[1..] == rs[1..] + [x];
      UniqueSnoc(rs[1..], x);
      HasReviewedSnoc(rs[1..], x, rs[0].userId, rs[0].productId);
    }
  }

  /**
   * `addReview`: the user must exist, then the product, then the rating must be 1 to 5,
   * then the pair must be new; the first check that fails names the error. On success the
   * review is appended and nothing else changes.
   */
  function AddReview(s: Store, uid: int, pid: int, rating: int, comment: string): (r: Result<Store, Error>)
    ensures r == Failure(UserNotFound) <==> forall i :: 0 <= i < |s.users| ==> s.users[i].id != uid
    ensures r == Failure(ProductNotFound) <==>
      UserIndex(s.users, uid).Some? && forall i :: 0 <= i < |s.products| ==> s.products[i].id != pid
    ensures r == Failure(InvalidRating) <==>
      UserIndex(s.users, uid).Some? && ProductIndex(s.products, pid).Some? && !(1 <= rating <= 5)
    ensures r == Failure(AlreadyReviewed) <==>
      && UserIndex(s.users, uid).Some? && ProductIndex(s.products, pid).Some? && 1 <= rating <= 5
      && exists i :: 0 <= i < |s.reviews| && s.reviews[i].userId == uid && s.reviews[i].productId == pid
    ensures r.Success? <==>
      && UserIndex(s.users, uid).Some? && ProductIndex(s.products, pid).Some? && 1 <= rating <= 5
      && !HasReviewed(s.reviews, uid, pid)
    ensures r.Success? ==> r.value == s.(reviews := s.reviews + [Review(uid, pid, rating, comment)])
  {
    if UserIndex(s.users, uid).None? then Failure(UserNotFound)
    else if ProductIndex(s.products, pid).None? then Failure(ProductNotFound)
    else if rating < 1 || rating > 5 then Failure(InvalidRating)
    else if HasReviewed(s.reviews, uid, pid) then Failure(AlreadyReviewed)
    else Success(s.(reviews := s.reviews + [Review(uid, pid, rating, comment)]))
  }

  /** Appending a review with a valid rating, existing referents and a new pair keeps a catalog consistent. */
  lemma SnocConsistent(s: Store, x: Review)
    requires Consistent(s)
    requires 1 <= x.rating <= 5
    requires UserIndex(s.users, x.userId).Some? && ProductIndex(s.products, x.productId).Some?
    requires !HasReviewed(s.reviews, x.userId, x.productId)
    ensures Consistent(s.(reviews := s.reviews + [x]))
  {
    UniqueSnoc(s.reviews, x);
    var t := s.reviews + [x];
    forall i | 0 <= i < |t| ensures Sound(s.users, s.products, t[i]) {
      if i < |s.reviews| {
        assert t[i] == s.reviews[i];
      }
    }
  }

  /** An accepted review keeps the catalog consistent and counted. */
  lemma AddReviewKeeps(s: Store, uid: int, pid: int, rating: int, comment: string)
    requires Consistent(s) && Counted(s)
    ensures var r := AddReview(s, uid, pid, rating, comment);
      r.Success? ==> Consistent(r.value) && Counted(r.value)
  {
    if AddReview(s, uid, pid, rating, comment).Success? {
      SnocConsistent(s, Review(uid, pid, rating, comment));
    }
  }

  /** An accepted review moves its product's average: one more rating, added to the sum. */
  lemma AddReviewTally(s: Store, uid: int, pid: int, rating: int, comment: string)
    ensures var r := AddReview(s, uid, pid, rating, comment);
      var t := RatingTally(s.reviews, pid);
      r.Success? ==> RatingTally(r.value.reviews, pid) == Tally(t.sum + rating, t.count + 1)
  {
    TallySnoc(s.reviews, Review(uid, pid, rating, comment), pid);
  }

  /** A second review of the same pair is refused, whatever its rating and comment. */
  lemma AddReviewTwice(s: Store, uid: int, pid: int, rating: int, comment: string, rating2: int, comment2: string)
    requires 1 <= rating2 <= 5
    ensures var r := AddReview(s, uid, pid, rating, comment);
      r.Success? ==> AddReview(r.value, uid, pid, rating2, comment2) == Failure(AlreadyReviewed)
  {
    var r := AddReview(s, uid, pid, rating, comment);
    if r.Success? {
      var t := r.value.reviews;
      assert t[|s.reviews|] == Review(uid, pid, rating, comment);
    }
  }

  /** The `remove_if`/`erase` idiom: the entries `keep` accepts, in their original order. */
  function Filter<T>(xs: seq<T>, keep: T -> bool): (r: seq<T>)
    ensures |r| <= |xs|
    ensures forall i :: 0 <= i < |r| ==> r[i] in xs && keep(r[i])
    ensures forall i :: 0 <= i < |xs| && keep(xs[i]) ==> xs[i] in r
  {
    if xs == [] then []
    else
      var rest := Filter(xs[1..], keep);
      assert forall i :: 1 <= i < |xs| ==> xs[i] == xs[1..][i - 1];
      if keep(xs[0]) then [xs[0]] + rest else rest
  }

  /** Filtering keeps relative order: the kept part of a concatenation is the concatenation of the kept parts. */
  lemma {:induction false} FilterAppend<T>(a: seq<T>, b: seq<T>, keep: T -> bool)
    ensures Filter(a + b, keep) == Filter(a, keep) + Filter(b, keep)
  {
    if a == [] {
      assert a + b == b;
    } else {
      assert (a + b)[0] == a[0] && (a + b)[1..] == a[1..] + b;
      FilterAppend(a[1..], b, keep);
    }
  }

  /** A review not by the user. */
  function NotByUser(uid: int): Review -> bool {
    (r: Review) => r.userId != uid
  }

  /** A review not about the product. */
  function NotForProduct(pid: int): Review -> bool {
    (r: Review) => r.productId != pid
  }

  /** `deleteUser`: remove the first user with the id and every review by that id. */
  function DeleteUser(s: Store, uid: int): (r: Result<Store, Error>)
    ensures r.Failure? <==> forall i :: 0 <= i < |s.users| ==> s.users[i].id != uid
    ensures r.Failure? ==> r.error == UserNotFound
    ensures r.Success? ==>
      var k := UserIndex(s.users, uid).value;
      r.value.users == s.users[..k] + s.users[k + 1..]
    ensures r.Success? ==> forall x :: x in r.value.reviews <==> x in s.reviews && x.userId != uid
    ensures r.Success? ==> r.value.reviews == Filter(s.reviews, NotByUser(uid))
    ensures r.Success? ==> r.value.products == s.products
    ensures r.Success? ==> r.value.nextProductId == s.nextProductId && r.value.nextUserId == s.nextUserId
  {
    match UserIndex(s.users, uid)
    case None => Failure(UserNotFound)
    case Some(k) =>
      Success(s.(users := s.users[..k] + s.users[k + 1..], reviews := Filter(s.reviews, NotByUser(uid))))
  }

  /** `deleteProduct`: remove the first product with the id and every review of that id. */
  function DeleteProduct(s: Store, pid: int): (r: Result<Store, Error>)
    ensures r.Failure? <==> forall i :: 0 <= i < |s.products| ==> s.products[i].id != pid
    ensures r.Failure? ==> r.error == ProductNotFound
    ensures r.Success? ==>
      var k := ProductIndex(s.products, pid).value;
      r.value.products == s.products[..k] + s.products[k + 1..]
    ensures r.Success? ==> forall x :: x in r.value.reviews <==> x in s.reviews && x.productId != pid
    ensures r.Success? ==> r.value.reviews == Filter(s.reviews, NotForProduct(pid))
    ensures r.Success? ==> r.value.users == s.users
    ensures r.Success? ==> r.value.nextProductId == s.nextProductId && r.value.nextUserId == s.nextUserId
  {
    match ProductIndex(s.products, pid)
    case None => Failure(ProductNotFound)
    case Some(k) =>
      Success(s.(products := s.products[..k] + s.products[k + 1..], reviews := Filter(s.reviews, NotForProduct(pid))))
  }

  /** A pair found among the kept reviews was among all the reviews. */
  lemma {:induction false} HasReviewedFilter(rs: seq<Review>, keep: Review -> bool, uid: int, pid: int)
    ensures HasReviewed(Filter(rs, keep), uid, pid) ==> HasReviewed(rs, uid, pid)
  {
    if rs != [] {
      HasReviewedFilter(rs[1..], keep, uid, pid);
      if keep(rs[0]) {
        var f := [rs[0]] + Filter(rs[1..], keep);
        assert f[0] == rs[0] && f[1..] == Filter(rs[1..], keep);
      }
    }
  }

  /** Removing reviews keeps the remaining pairs unique. */
  lemma {:induction false} UniqueFilter(rs: seq<Review>, keep: Review -> bool)
    requires Unique(rs)
    ensures Unique(Filter(rs, keep))
  {
    if rs != [] {
      UniqueFilter(rs[1..], keep);
      if keep(rs[0]) {
        var f := [rs[0]] + Filter(rs[1..], keep);
        assert f[0] == rs[0] && f[1..] == Filter(rs[1..], keep);
        HasReviewedFilter(rs[1..], keep, rs[0].userId, rs[0].productId);
      }
    }
  }

  /** Removing one user leaves every other id findable. */
  lemma UserIndexRemove(us: seq<User>, k: nat, id: int)
    requires k < |us| && us[k].id != id && UserIndex(us, id).Some?
    ensures UserIndex(us[..k] + us[k + 1..], id).Some?
  {
    var j := UserIndex(us, id).value;
    var t := us[..k] + us[k + 1..];
    var m := if j < k then j else j - 1;
    assert t[m] == us[j];
    assert t[m].id == id;
  }

  lemma ProductIndexRemove(ps: seq<Product>, k: nat, id: int)
    requires k < |ps| && ps[k].id != id && ProductIndex(ps, id).Some?
    ensures ProductIndex(ps[..k] + ps[k + 1..], id).Some?
  {
    var j := ProductIndex(ps, id).value;
    var t := ps[..k] + ps[k + 1..];
    var m := if j < k then j else j - 1;
    assert t[m] == ps[j];
    assert t[m].id == id;
  }

  /** A review that survives deleting a user is not by that user, and its user remains. */
  lemma SurvivorOfUser(s: Store, uid: int, k: nat, x: Review)
    requires Consistent(s) && UserIndex(s.users, uid) == Some(k)
    requires x in Filter(s.reviews, NotByUser(uid))
    ensures Sound(s.users[..k] + s.users[k + 1..], s.products, x)
  {
    assert x in s.reviews && NotByUser(uid)(x);
    UserIndexRemove(s.users, k, x.userId);
  }

  lemma SurvivorOfProduct(s: Store, pid: int, k: nat, x: Review)
    requires Consistent(s) && ProductIndex(s.products, pid) == Some(k)
    requires x in Filter(s.reviews, NotForProduct(pid))
    ensures Sound(s.users, s.products[..k] + s.products[k + 1..], x)
  {
    assert x in s.reviews && NotForProduct(pid)(x);
    ProductIndexRemove(s.products, k, x.productId);
  }

  /** The catalog left by removing the user at `k` and the user's reviews is consistent and counted. */
  lemma RemoveUserKeeps(s: Store, uid: int, k: nat)
    requires Consistent(s) && Counted(s) && UserIndex(s.users, uid) == Some(k)
    ensures var t := s.(users := s.users[..k] + s.users[k + 1..], reviews := Filter(s.reviews, NotByUser(uid)));
      Consistent(t) && Counted(t)
  {
    var t := s.(users := s.users[..k] + s.users[k + 1..], reviews := Filter(s.reviews, NotByUser(uid)));
    UniqueFilter(s.reviews, NotByUser(uid));
    forall i | 0 <= i < |t.reviews| ensures Sound(t.users, t.products, t.reviews[i]) {
      SurvivorOfUser(s, uid, k, t.reviews[i]);
    }
    assert forall i :: 0 <= i < |t.users| ==> t.users[i] in s.users;
  }

  lemma RemoveProductKeeps(s: Store, pid: int, k: nat)
    requires Consistent(s) && Counted(s) && ProductIndex(s.products, pid) == Some(k)
    ensures var t := s.(products := s.products[..k] + s.products[k + 1..], reviews := Filter(s.reviews, NotForProduct(pid)));
      Consistent(t) && Counted(t)
  {
    var t := s.(products := s.products[..k] + s.products[k + 1..], reviews := Filter(s.reviews, NotForProduct(pid)));
    UniqueFilter(s.reviews, NotForProduct(pid));
    forall i | 0 <= i < |t.reviews| ensures Sound(t.users, t.products, t.reviews[i]) {
      SurvivorOfProduct(s, pid, k, t.reviews[i]);
    }
    assert forall i :: 0 <= i < |t.products| ==> t.products[i] in s.products;
  }

  /**
   * Deleting a user keeps the catalog consistent and counted: the reviews that remain
   * name users and products that remain, and none of them is by the deleted id.
   */
  lemma DeleteUserKeeps(s: Store, uid: int)
    requires Consistent(s) && Counted(s)
    ensures var r := DeleteUser(s, uid);
      r.Success? ==> (Consistent(r.value) && Counted(r.value)
        && forall i :: 0 <= i < |r.value.reviews| ==> r.value.reviews[i].userId != uid)
  {
    if DeleteUser(s, uid).Success? {
      RemoveUserKeeps(s, uid, UserIndex(s.users, uid).value);
    }
  }

  /** The product counterpart of `DeleteUserKeeps`. */
  lemma DeleteProductKeeps(s: Store, pid: int)
    requires Consistent(s) && Counted(s)
    ensures var r := DeleteProduct(s, pid);
      r.Success? ==> (Consistent(r.value) && Counted(r.value)
        && forall i :: 0 <= i < |r.value.reviews| ==> r.value.reviews[i].productId != pid)
  {
    if DeleteProduct(s, pid).Success? {
      RemoveProductKeeps(s, pid, ProductIndex(s.products, pid).value);
    }
  }
}

=== FILE: codec.dfy ===
/**
 * The hand-rolled JSON codec of the catalog: string escaping and the
 * single-field extractor used to decode stored records (main.cpp:25-77).
 */
module Codec {
  import opened Basics
  import opened Text

  /** The five characters `escapeJsonString` rewrites. */
  predicate NeedsEscape(c: char) {
    c == '"' || c == '\\' || c == '\n' || c == '\r' || c == '\t'
  }

  /** A text that escaping leaves alone. */
  predicate Plain(s: string) {
    forall i :: 0 <= i < |s| ==> !NeedsEscape(s[i])
  }

  lemma PlainHasNoQuote(s: string)
    requires Plain(s)
    ensures '"' !in s
  {
  }

  function EscapeChar(c: char): string {
    match c
    case '"' => "\\\""
    case '\\' => "\\\\"
    case '\n' => "\\n"
    case '\r' => "\\r"
    case '\t' => "\\t"
    case _ => [c]
  }

  /** `escapeJsonString`: each of the five special characters becomes its two-character escape. */
  function Escape(s: string): (r: string)
    ensures Plain(s) ==> r == s
    ensures !Plain(s) ==> |r| > |s|
    ensures forall i :: 0 <= i < |r| ==> r[i] != '\n' && r[i] != '\r' && r[i] != '\t'
    ensures '"' in r <==> '"' in s
    ensures '{' in r <==> '{' in s
    ensures '}' in r <==> '}' in s
  {
    if s == [] then []
    else
      var e := EscapeChar(s[0]);
      assert s == [s[0]] + s[1..];
      assert !Plain(s) ==> NeedsEscape(s[0]) || !Plain(s[1..]);
      assert '"' in e <==> s[0] == '"';
      assert '{' in e <==> s[0] == '{';
      assert '}' in e <==> s[0] == '}';
      e + Escape(s[1..])
  }

  /** Escaping distributes over concatenation. */
  lemma {:induction false} EscapeConcat(a: string, b: string)
    ensures Escape(a + b) == Escape(a) + Escape(b)
  {
    if a == [] {
      assert a + b == b;
    } else {
      assert (a + b)[0] == a[0];
      assert (a + b)[1..] == a[1..] + b;
      EscapeConcat(a[1..], b);
    }
  }

  lemma EscapeQuote()
    ensures Escape("\"") == "\\\""
  {
    assert "\""[0] == '"';
    assert "\""[1..] == [];
  }

  /** Escaping a text with a quote in it puts the two-character escape `\"` in its place. */
  lemma EscapeAtQuote(x: string, y: string)
    ensures Escape(x + "\"" + y) == Escape(x) + ("\\\"" + Escape(y))
  {
    EscapeConcat(x + "\"", y);
    EscapeConcat(x, "\"");
    EscapeQuote();
    ConcatAssoc(Escape(x), "\\\"", Escape(y));
  }

  /** The decoder of the escapes `Escape` writes: a backslash and the character after it stand for one character. */
  function DecodeEscapes(s: string): string {
    if |s| >= 2 && s[0] == '\\' then
      var c := match s[1] case 'n' => '\n' case 'r' => '\r' case 't' => '\t' case other => other;
      [c] + DecodeEscapes(s[2..])
    else if s == [] then []
    else [s[0]] + DecodeEscapes(s[1..])
  }

  /** The decoder turns one escaped character back into that character. */
  lemma DecodeEscapeChar(c: char, rest: string)
    ensures DecodeEscapes(EscapeChar(c) + rest) == [c] + DecodeEscapes(rest)
  {
    var s := EscapeChar(c) + rest;
    if NeedsEscape(c) {
      assert |s| >= 2 && s[0] == '\\';
      assert s[2..] == rest;
    } else {
      assert EscapeChar(c) == [c];
      assert s[1..] == rest;
    }
  }

  /** Escaping loses nothing: decoding the escapes recovers the original text. */
  lemma {:induction false} EscapeIsLossless(s: string)
    ensures DecodeEscapes(Escape(s)) == s
  {
    if s != [] {
      assert Escape(s) == EscapeChar(s[0]) + Escape(s[1..]);
      DecodeEscapeChar(s[0], Escape(s[1..]));
      EscapeIsLossless(s[1..]);
      assert s == [s[0]] + s[1..];
    }
  }

  /**
   * The clean-up loop of `extractJsonValue` (main.cpp:63-67): each `\"` becomes `"`,
   * scanning on from just after the inserted quote.
   */
  function Unescape(s: string): (r: string)
    ensures |r| <= |s|
    ensures '"' !in s ==> r == s
  {
    if |s| >= 2 && s[0] == '\\' && s[1] == '"' then "\"" + Unescape(s[2..])
    else if s == [] then []
    else
      assert '"' !in s ==> '"' !in s[1..];
      [s[0]] + Unescape(s[1..])
  }

  /** The characters that end an unquoted value: space, tab, newline, carriage return, `,` and `}`. */
  const BareDelims: set<char> := {' ', '\t', '\n', '\r', ',', '}'}

  /** The text `extractJsonValue` searches for: `"key":`. */
  function KeyPattern(key: string): string {
    "\"" + key + "\":"
  }

  /** The value `extractJsonValue` reads from the text that follows `"key":`. */
  function ValueText(rest: string): string {
    var v := DropSpace(rest);
    if v == [] then ""
    else if v[0] == '"' then
      match IndexOfAny(v[1..], {'"'})
      case Some(e) => Unescape(v[1..][..e])
      case None => ""
    else
      match IndexOfAny(v, BareDelims)
      case Some(e) => v[..e]
      case None => ""
  }

  /** A quoted value never holds a quote: it is cut at the first one. */
  lemma QuotedValueShape(rest: string)
    requires var v := DropSpace(rest); v != [] && v[0] == '"'
    ensures '"' !in ValueText(rest)
  {
    var v := DropSpace(rest);
    var e := IndexOfAny(v[1..], {'"'});
    if e.Some? {
      var t := v[1..][..e.value];
      assert forall i :: 0 <= i < |t| ==> t[i] != '"';
      assert ValueText(rest) == Unescape(t);
    }
  }

  /** A bare value never holds a delimiter: it is cut at the first one. */
  lemma BareValueShape(rest: string)
    requires var v := DropSpace(rest); v != [] && v[0] != '"'
    ensures forall i :: 0 <= i < |ValueText(rest)| ==> ValueText(rest)[i] !in BareDelims
  {
    var v := DropSpace(rest);
    var e := IndexOfAny(v, BareDelims);
    if e.Some? {
      assert ValueText(rest) == v[..e.value];
    }
  }

  /**
   * `extractJsonValue`: find the first `"key":`, skip white space, then read either a
   * quoted value up to the next `"` or a bare token up to the next delimiter.
   */
  function ExtractValue(json: string, key: string): (r: string)
    ensures NoMatchIn(json, KeyPattern(key), 0, |json| + 1) ==> r == ""
  {
    var pat := KeyPattern(key);
    match Find(json, pat, 0)
    case None => ""
    case Some(p) => ValueText(json[p + |pat|..])
  }

  /** The value read is the one after the first occurrence of the key. */
  lemma ExtractAt(pre: string, key: string, rest: string)
    requires NoMatchIn(pre + KeyPattern(key) + rest, KeyPattern(key), 0, |pre|)
    ensures ExtractValue(pre + KeyPattern(key) + rest, key) == ValueText(rest)
  {
    var pat := KeyPattern(key);
    var json := pre + pat + rest;
    assert json[|pre|..|pre| + |pat|] == pat;
    FindFirst(json, pat, 0, |pre|);
    assert json[|pre| + |pat|..] == rest;
  }

  /** Nothing but white space after the key reads as the empty value. */
  lemma ValueOfBlank(ws: string)
    requires forall i :: 0 <= i < |ws| ==> IsSpace(ws[i])
    ensures ValueText(ws) == ""
  {
  }

  /** A quoted value reads as the text up to the next quote. */
  lemma ValueOfQuoted(ws: string, s: string, more: string)
    requires forall i :: 0 <= i < |ws| ==> IsSpace(ws[i])
    requires '"' !in s
    ensures ValueText(ws + "\"" + s + "\"" + more) == s
  {
    var tail := s + ("\"" + more);
    var w := "\"" + tail;
    assert w[1..] == tail;
    TakeConcat(s, "\"" + more);
    assert tail[|s|] == '"';
    IndexOfAnyAt(tail, {'"'}, |s|);
    assert ws + "\"" + s + "\"" + more == ws + w;
    DropSpaceOver(ws, w);
  }

  /** A quoted value right after the key reads as the text up to the next quote. */
  lemma ValueOfQuotedAfter(s: string, more: string)
    requires '"' !in s
    ensures ValueText("\"" + (s + ("\"" + more))) == s
  {
    var tail := s + ("\"" + more);
    var w := "\"" + tail;
    assert w[1..] == tail;
    TakeConcat(s, "\"" + more);
    assert tail[|s|] == '"';
    IndexOfAnyAt(tail, {'"'}, |s|);
    DropSpaceKeeps(w);
  }

  /** A bare value reads as the token up to the first delimiter. */
  lemma ValueOfBare(ws: string, v: string, d: char, more: string)
    requires forall i :: 0 <= i < |ws| ==> IsSpace(ws[i])
    requires v != [] && !IsSpace(v[0]) && v[0] != '"'
    requires forall i :: 0 <= i < |v| ==> v[i] !in BareDelims
    requires d in BareDelims
    ensures ValueText(ws + v + [d] + more) == v
  {
    var w := v + ([d] + more);
    TakeConcat(v, [d] + more);
    assert w[|v|] == d;
    IndexOfAnyAt(w, BareDelims, |v|);
    assert ws + v + [d] + more == ws + w;
    DropSpaceOver(ws, w);
  }

  /** A bare value with no delimiter after it reads as the empty value. */
  lemma ValueOfUnterminated(ws: string, v: string)
    requires forall i :: 0 <= i < |ws| ==> IsSpace(ws[i])
    requires v != [] && !IsSpace(v[0]) && v[0] != '"'
    requires forall i :: 0 <= i < |v| ==> v[i] !in BareDelims
    ensures ValueText(ws + v) == ""
  {
    DropSpaceOver(ws, v);
  }

  /** An opening quote with no closing quote reads as the empty value. */
  lemma ValueOfUnclosed(ws: string, s: string)
    requires forall i :: 0 <= i < |ws| ==> IsSpace(ws[i])
    requires '"' !in s
    ensures ValueText(ws + "\"" + s) == ""
  {
    assert ws + "\"" + s == ws + ("\"" + s);
    DropSpaceOver(ws, "\"" + s);
    assert ("\"" + s)[1..] == s;
  }
}

=== FILE: entities.dfy ===
/**
 * The three records of the catalog (main.cpp:80-165), their `toJson` texts,
 * and the per-record decoding that `loadData` applies to each array fragment
 * (main.cpp:254-285). Prices are whole cents.
 */
module Entities {
  import opened Basics
  import opened Text
  import opened Numbers
  import opened Codec
  import opened Objects

  datatype Product = Product(id: int, name: string, category: string, price: int)

  datatype User = User(id: int, name: string)

  /** A review of one product by one user; the rating is meant to be 1 to 5. */
  datatype Review = Review(userId: int, productId: int, rating: int, comment: string)

  /**
   * The members `Product::toJson` writes, in order: `"id":<id>`, `"name":"<escaped name>"`,
   * `"category":"<escaped category>"`, `"price":<price with two decimals>`.
   */
  function ProductFields(p: Product): seq<Field> {
    [Bare("id", IntText(p.id)), Quoted("name", Escape(p.name)),
     Quoted("category", Escape(p.category)), Bare("price", PriceText(p.price))]
  }

  /** The members `User::toJson` writes: `"id":<id>`, `"name":"<escaped name>"`. */
  function UserFields(u: User): seq<Field> {
    [Bare("id", IntText(u.id)), Quoted("name", Escape(u.name))]
  }

  /**
   * The members `Review::toJson` writes: `"user_id":<id>`, `"product_id":<id>`,
   * `"rating":<rating>`, `"comment":"<escaped comment>"`.
   */
  function ReviewFields(r: Review): seq<Field> {
    [Bare("user_id", IntText(r.userId)), Bare("product_id", IntText(r.productId)),
     Bare("rating", IntText(r.rating)), Quoted("comment", Escape(r.comment))]
  }

  /** `Product::toJson`: `{` then the members separated by `,`, then `}`, with no white space. */
  function ProductJson(p: Product): (r: string)
    ensures |r| >= 2 && r[0] == '{' && r[|r| - 1] == '}'
  {
    MembersEnd(ProductFields(p));
    Render(ProductFields(p))
  }

  /** `User::toJson`: `{"id":<id>,"name":"<escaped name>"}`. */
  function UserJson(u: User): (r: string)
    ensures |r| >= 2 && r[0] == '{' && r[|r| - 1] == '}'
  {
    MembersEnd(UserFields(u));
    Render(UserFields(u))
  }

  /** `Review::toJson`: one object with the four review members. */
  function ReviewJson(x: Review): (r: string)
    ensures |r| >= 2 && r[0] == '{' && r[|r| - 1] == '}'
  {
    MembersEnd(ReviewFields(x));
    Render(ReviewFields(x))
  }

  /** The loader's record for one product fragment: `id` and `price` must parse, the strings are taken as read. */
  function DecodeProduct(o: string): (r: Option<Product>)
    ensures r.None? <==> ParseInt(ExtractValue(o, "id")).None? || ParsePrice(ExtractValue(o, "price")).None?
    ensures r.Some? ==> && ParseInt(ExtractValue(o, "id")) == Some(r.value.id)
                        && ParsePrice(ExtractValue(o, "price")) == Some(r.value.price)
                        && r.value.name == ExtractValue(o, "name") && r.value.category == ExtractValue(o, "category")
  {
    match ParseInt(ExtractValue(o, "id"))
    case None => None
    case Some(id) =>
      match ParsePrice(ExtractValue(o, "price"))
      case None => None
      case Some(price) => Some(Product(id, ExtractValue(o, "name"), ExtractValue(o, "category"), price))
  }

  /** `id` must parse; the name is taken as read. */
  function DecodeUser(o: string): (r: Option<User>)
    ensures r.None? <==> ParseInt(ExtractValue(o, "id")).None?
    ensures r.Some? ==> ParseInt(ExtractValue(o, "id")) == Some(r.value.id) && r.value.name == ExtractValue(o, "name")
  {
    match ParseInt(ExtractValue(o, "id"))
    case None => None
    case Some(id) => Some(User(id, ExtractValue(o, "name")))
  }

  /** `user_id`, `product_id` and `rating` must all parse, in that order. */
  function DecodeReview(o: string): (r: Option<Review>)
    ensures r.None? <==>
      || ParseInt(ExtractValue(o, "user_id")).None? || ParseInt(ExtractValue(o, "product_id")).None?
      || ParseInt(ExtractValue(o, "rating")).None?
    ensures r.Some? ==> && ParseInt(ExtractValue(o, "user_id")) == Some(r.value.userId)
                        && ParseInt(ExtractValue(o, "product_id")) == Some(r.value.productId)
                        && ParseInt(ExtractValue(o, "rating")) == Some(r.value.rating)
                        && r.value.comment == ExtractValue(o, "comment")
  {
    match ParseInt(ExtractValue(o, "user_id"))
    case None => None
    case Some(uid) =>
      match ParseInt(ExtractValue(o, "product_id"))
      case None => None
      case Some(pid) =>
        match ParseInt(ExtractValue(o, "rating"))
        case None => None
        case Some(rating) => Some(Review(uid, pid, rating, ExtractValue(o, "comment")))
  }

  /** A number as `operator<<` writes it is a valid bare value. */
  lemma IntTextBare(n: int)
    ensures BareOk(IntText(n))
  {
  }

  /** A price as the catalog writes it is a valid bare value. */
  lemma PriceTextBare(c: int)
    ensures BareOk(PriceText(c))
  {
  }


  lemma KeysOk()
    ensures KeyOk("id") && KeyOk("name") && KeyOk("category") && KeyOk("price")
    ensures KeyOk("user_id") && KeyOk("product_id") && KeyOk("rating") && KeyOk("comment")
  {
  }

  /** A product with a quote-free name and category has well-formed, distinct members. */
  lemma ProductFieldsOk(p: Product)
    requires '"' !in p.name && '"' !in p.category
    ensures FieldsOk(ProductFields(p))
  {
    KeysOk();
    IntTextBare(p.id);
    PriceTextBare(p.price);
    var fs := ProductFields(p);
    FieldsOkOfFour(fs[0], fs[1], fs[2], fs[3]);
  }

  lemma UserFieldsOk(u: User)
    requires '"' !in u.name
    ensures FieldsOk(UserFields(u))
  {
    KeysOk();
    IntTextBare(u.id);
  }

  lemma ReviewFieldsOk(r: Review)
    requires '"' !in r.comment
    ensures FieldsOk(ReviewFields(r))
  {
    KeysOk();
    IntTextBare(r.userId);
    IntTextBare(r.productId);
    IntTextBare(r.rating);
    var fs := ReviewFields(r);
    FieldsOkOfFour(fs[0], fs[1], fs[2], fs[3]);
  }

  /** The values read from a saved product are the texts its members were written with. */
  lemma ProductValues(p: Product)
    requires '"' !in p.name && '"' !in p.category
    ensures ExtractValue(ProductJson(p), "id") == IntText(p.id)
    ensures ExtractValue(ProductJson(p), "name") == Escape(p.name)
    ensures ExtractValue(ProductJson(p), "category") == Escape(p.category)
    ensures ExtractValue(ProductJson(p), "price") == PriceText(p.price)
  {
    var fs := ProductFields(p);
    ProductFieldsOk(p);
    ExtractRendered(fs, 0);
    ExtractRendered(fs, 1);
    ExtractRendered(fs, 2);
    ExtractRendered(fs, 3);
  }

  /**
   * Loading a saved product gives back its id and price, and its name and category
   * in their escaped form, provided neither contains a quote.
   */
  lemma ProductRoundTrip(p: Product)
    requires IsInt32(p.id) && '"' !in p.name && '"' !in p.category
    ensures DecodeProduct(ProductJson(p)) == Some(Product(p.id, Escape(p.name), Escape(p.category), p.price))
  {
    ProductValues(p);
    IntTextRoundTrip(p.id);
    PriceTextRoundTrip(p.price);
  }

  lemma UserRoundTrip(u: User)
    requires IsInt32(u.id) && '"' !in u.name
    ensures DecodeUser(UserJson(u)) == Some(User(u.id, Escape(u.name)))
  {
    var fs := UserFields(u);
    UserFieldsOk(u);
    ExtractRendered(fs, 0);
    ExtractRendered(fs, 1);
    IntTextRoundTrip(u.id);
  }

  lemma ReviewValues(r: Review)
    requires '"' !in r.comment
    ensures ExtractValue(ReviewJson(r), "user_id") == IntText(r.userId)
    ensures ExtractValue(ReviewJson(r), "product_id") == IntText(r.productId)
    ensures ExtractValue(ReviewJson(r), "rating") == IntText(r.rating)
    ensures ExtractValue(ReviewJson(r), "comment") == Escape(r.comment)
  {
    var fs := ReviewFields(r);
    ReviewFieldsOk(r);
    ExtractRendered(fs, 0);
    ExtractRendered(fs, 1);
    ExtractRendered(fs, 2);
    ExtractRendered(fs, 3);
  }

  lemma ReviewRoundTrip(r: Review)
    requires IsInt32(r.userId) && IsInt32(r.productId) && IsInt32(r.rating) && '"' !in r.comment
    ensures DecodeReview(ReviewJson(r)) == Some(Review(r.userId, r.productId, r.rating, Escape(r.comment)))
  {
    ReviewValues(r);
    IntTextRoundTrip(r.userId);
    IntTextRoundTrip(r.productId);
    IntTextRoundTrip(r.rating);
  }

  /** With no escaped character in its strings, a saved product loads back unchanged. */
  lemma ProductRoundTripPlain(p: Product)
    requires IsInt32(p.id) && Plain(p.name) && Plain(p.category)
    ensures DecodeProduct(ProductJson(p)) == Some(p)
  {
    PlainHasNoQuote(p.name);
    PlainHasNoQuote(p.category);
    ProductRoundTrip(p);
  }

  lemma UserRoundTripPlain(u: User)
    requires IsInt32(u.id) && Plain(u.name)
    ensures DecodeUser(UserJson(u)) == Some(u)
  {
    PlainHasNoQuote(u.name);
    UserRoundTrip(u);
  }

  lemma ReviewRoundTripPlain(r: Review)
    requires IsInt32(r.userId) && IsInt32(r.productId) && IsInt32(r.rating) && Plain(r.comment)
    ensures DecodeReview(ReviewJson(r)) == Some(r)
  {
    PlainHasNoQuote(r.comment);
    ReviewRoundTrip(r);
  }

  /** The quoted value `"e\"t"` followed by `}`, regrouped at its escaped quote. */
  lemma CutNameLayout(e: string, t: string)
    ensures ("\"" + (e + ("\\\"" + t)) + "\"") + "}" == "\"" + ((e + "\\") + ("\"" + (t + "\"}")))
  {
  }

  /** The value after `"name":` in a user text whose escaped name holds an escaped quote. */
  lemma ValueOfCutName(e: string, t: string)
    requires '"' !in e
    ensures ValueText(("\"" + (e + ("\\\"" + t)) + "\"") + "}") == e + "\\"
  {
    CutNameLayout(e, t);
    ValueOfQuotedAfter(e + "\\", t + "\"}");
  }

  /**
   * A quote in a name is cut off on loading: the escaped name `x\"y` is read only up
   * to its escaped quote, so the name comes back as the escaped `x` plus a backslash.
   */
  lemma QuoteInNameIsCut(id: int, x: string, y: string)
    requires IsInt32(id) && '"' !in x
    ensures DecodeUser(UserJson(User(id, x + "\"" + y))) == Some(User(id, Escape(x) + "\\"))
  {
    var u := User(id, x + "\"" + y);
    EscapeAtQuote(x, y);
    var fs := UserFields(u);
    KeysOk();
    IntTextBare(id);
    ExtractOfTwo(fs[0], fs[1]);
    IntTextRoundTrip(id);
    ValueOfCutName(Escape(x), Escape(y));
  }
}

=== FILE: numbers.dfy ===
/**
 * Numbers as the catalog writes and reads them: `operator<<` on an `int`,
 * `fixed << setprecision(2)` on a price, `std::stoi`, and `std::stod`.
 * Prices are kept as whole cents, so no floating point is involved.
 */
module Numbers {
  import opened Basics
  import opened Text

  function DigitChar(d: nat): (c: char)
    requires d < 10
    ensures IsDigit(c)
  {
    (('0' as int) + d) as char
  }

  function DigitValue(c: char): (d: nat)
    requires IsDigit(c)
    ensures d < 10 && DigitChar(d) == c
  {
    (c as int) - ('0' as int)
  }

  predicate AllDigits(s: string) {
    forall i :: 0 <= i < |s| ==> IsDigit(s[i])
  }

  /** The decimal digits of `n`, most significant first, without leading zeros. */
  function NatText(n: nat): (r: string)
    ensures |r| > 0 && AllDigits(r)
    ensures |r| > 1 ==> r[0] != '0'
  {
    if n < 10 then [DigitChar(n)] else NatText(n / 10) + [DigitChar(n % 10)]
  }

  /** An `int` as `operator<<` writes it: a minus sign for negatives, then the digits. */
  function IntText(n: int): (r: string)
    ensures |r| > 0 && (r[0] == '-' <==> n < 0)
    ensures forall i :: 0 <= i < |r| ==> IsDigit(r[i]) || (i == 0 && r[i] == '-')
  {
    if n < 0 then "-" + NatText(-n) else NatText(n)
  }

  /** The value of a run of decimal digits. */
  function DigitsValue(s: string): nat
    requires AllDigits(s)
  {
    if s == [] then 0 else DigitsValue(s[..|s| - 1]) * 10 + DigitValue(s[|s| - 1])
  }

  /** Reading back the digits of `n` gives `n`. */
  lemma {:induction false} DigitsValueOfNatText(n: nat)
    ensures DigitsValue(NatText(n)) == n
  {
    if n >= 10 {
      var s := NatText(n);
      assert s[..|s| - 1] == NatText(n / 10);
      DigitsValueOfNatText(n / 10);
    }
  }

  /** The length of the run of decimal digits at the start of `s`. */
  function DigitRun(s: string): (k: nat)
    ensures k <= |s| && AllDigits(s[..k])
    ensures k < |s| ==> !IsDigit(s[k])
  {
    if s != [] && IsDigit(s[0]) then 1 + DigitRun(s[1..]) else 0
  }

  /** The digit run of `a + b` is exactly `a` when `b` does not continue it. */
  lemma DigitRunOfConcat(a: string, b: string)
    requires AllDigits(a)
    requires b == [] || !IsDigit(b[0])
    ensures DigitRun(a + b) == |a|
    ensures (a + b)[..|a|] == a
  {
  }

  /** The text after an optional leading `-` or `+`, and whether the sign was `-`. */
  function SplitSign(t: string): (string, bool) {
    if t != [] && (t[0] == '-' || t[0] == '+') then (t[1..], t[0] == '-') else (t, false)
  }

  /**
   * `std::stoi`: skip `isspace`, take an optional sign and at least one digit,
   * ignore what follows; no digits or a value outside `int` is a failure.
   */
  function ParseInt(s: string): (r: Option<int>)
    ensures r.Some? ==> IsInt32(r.value)
    ensures DigitRun(SplitSign(DropSpace(s)).0) == 0 ==> r.None?
  {
    var (u, negative) := SplitSign(DropSpace(s));
    var k := DigitRun(u);
    if k == 0 then None
    else
      var magnitude: int := DigitsValue(u[..k]);
      var v := if negative then -magnitude else magnitude;
      if IsInt32(v) then Some(v) else None
  }

  /** `stoi` reads back every `int` that `operator<<` writes. */
  lemma IntTextRoundTrip(n: int)
    requires IsInt32(n)
    ensures ParseInt(IntText(n)) == Some(n)
  {
    var t := IntText(n);
    assert DropSpace(t) == t;
    var digits := if n < 0 then NatText(-n) else NatText(n);
    assert SplitSign(t).0 == digits + [];
    DigitRunOfConcat(digits, []);
    DigitsValueOfNatText(if n < 0 then -n else n);
  }

  /** A text with no digit at all never parses as an `int`. */
  lemma ParseIntNeedsDigit(s: string)
    requires forall i :: 0 <= i < |s| ==> !IsDigit(s[i])
    ensures ParseInt(s) == None
  {
    var t := DropSpace(s);
    var u := SplitSign(t).0;
    if u != [] {
      assert u[0] in s;
    }
  }

  function Abs(c: int): nat {
    if c < 0 then -c else c
  }

  /** The unsigned part of a written price. */
  function AmountText(a: nat): (r: string)
    ensures |r| >= 4 && IsDigit(r[0]) && r[|r| - 3] == '.'
    ensures forall i :: 0 <= i < |r| && i != |r| - 3 ==> IsDigit(r[i])
  {
    NatText(a / 100) + ("." + [DigitChar(a % 100 / 10), DigitChar(a % 10)])
  }

  /** A price of `c` cents as `fixed << setprecision(2)` writes it, e.g. `-0.05` or `99.99`. */
  function PriceText(c: int): (r: string)
    ensures |r| >= 4 && r[|r| - 3] == '.' && IsDigit(r[|r| - 2]) && IsDigit(r[|r| - 1])
    ensures r[0] == '-' <==> c < 0
    ensures forall i :: 0 < i < |r| && i != |r| - 3 ==> IsDigit(r[i])
    ensures c >= 0 ==> IsDigit(r[0])
  {
    (if c < 0 then "-" else "") + AmountText(Abs(c))
  }

  /** The unsigned part of `stod` in cents: digits, an optional `.` and digits, at least one digit. */
  function ParseDecimal(u: string): Option<nat> {
    var k := DigitRun(u);
    var rest := u[k..];
    var frac := if rest != [] && rest[0] == '.' then rest[1..] else [];
    var f := DigitRun(frac);
    if k == 0 && f == 0 then None
    else
      var d1 := if f >= 1 then DigitValue(frac[0]) else 0;
      var d2 := if f >= 2 then DigitValue(frac[1]) else 0;
      Some(DigitsValue(u[..k]) * 100 + d1 * 10 + d2)
  }

  /**
   * `std::stod`, restricted to plain decimals and measured in cents: skip `isspace`,
   * an optional sign, then `ParseDecimal`. Digits past the second decimal are dropped.
   */
  function ParsePrice(s: string): (r: Option<int>)
    ensures r.Some? && r.value < 0 ==> '-' in s
  {
    var (u, negative) := SplitSign(DropSpace(s));
    match ParseDecimal(u)
    case None => None
    case Some(cents) =>
      var v: int := cents;
      Some(if negative then -v else v)
  }

  /** A text with no digit at all never parses as a price, as `stod` throws on it. */
  lemma ParsePriceNeedsDigit(s: string)
    requires forall i :: 0 <= i < |s| ==> !IsDigit(s[i])
    ensures ParsePrice(s) == None
  {
    var u := SplitSign(DropSpace(s)).0;
    assert forall i :: 0 <= i < |u| ==> u[i] in s;
    var k := DigitRun(u);
    var rest := u[k..];
    var frac := if rest != [] && rest[0] == '.' then rest[1..] else [];
    assert forall i :: 0 <= i < |frac| ==> frac[i] in s;
  }

  /** Division by ten is pinned down by any quotient and remainder that fit. */
  lemma DivModTen(a: int, q: int, r: int)
    requires a == q * 10 + r && 0 <= r < 10
    ensures a / 10 == q && a % 10 == r
  {
  }

  /** Whole units, tens of cents and cents recombine to the amount. */
  lemma CentsSplit(a: nat)
    ensures (a / 100) * 100 + (a % 100 / 10) * 10 + a % 10 == a
  {
    var q, m := a / 100, a % 100;
    var t, u := m / 10, m % 10;
    assert m == t * 10 + u;
    assert a == (q * 10 + t) * 10 + u;
    DivModTen(a, q * 10 + t, u);
  }

  /** A written amount `whole.d1d2` parses back to its cents. */
  lemma ParseDecimalOfText(whole: string, d1: nat, d2: nat)
    requires AllDigits(whole) && |whole| > 0 && d1 < 10 && d2 < 10
    ensures var u := whole + ("." + [DigitChar(d1), DigitChar(d2)]); ParseDecimal(u).Some? && ParseDecimal(u).value == DigitsValue(whole) * 100 + d1 * 10 + d2
  {
    var frac := [DigitChar(d1), DigitChar(d2)];
    var u := whole + ("." + frac);
    DigitRunOfConcat(whole, "." + frac);
    var k := DigitRun(u);
    assert k == |whole|;
    assert u[..k] == whole;
    var rest := u[k..];
    assert rest == "." + frac;
    assert rest[1..] == frac + [];
    DigitRunOfConcat(frac, []);
    assert DigitRun(frac) == 2;
    var f := DigitRun(rest[1..]);
    assert f == 2;
    assert DigitValue(frac[0]) == d1;
    assert DigitValue(frac[1]) == d2;
    assert ParseDecimal(u).Some?;
    assert ParseDecimal(u).value == DigitsValue(whole) * 100 + d1 * 10 + d2;
  }

  /** The unsigned part of a written price parses back to its cents. */
  lemma ParseDecimalOfAmount(a: nat)
    ensures ParseDecimal(AmountText(a)) == Some(a)
  {
    ParseDecimalOfText(NatText(a / 100), a % 100 / 10, a % 10);
    DigitsValueOfNatText(a / 100);
    CentsSplit(a);
  }

  /** `stod` applies a leading sign to the amount that follows it. */
  lemma ParsePriceSigned(negative: bool, u: string)
    requires u != [] && IsDigit(u[0]) && ParseDecimal(u).Some?
    ensures var v: int := ParseDecimal(u).value;
      ParsePrice((if negative then "-" else "") + u) == Some(if negative then -v else v)
  {
    var t := (if negative then "-" else "") + u;
    assert t[0] == '-' || t[0] == u[0];
    DropSpaceKeeps(t);
    assert SplitSign(t) == (u, negative);
  }

  /** `stod` reads back every price that the catalog writes. */
  lemma PriceTextRoundTrip(c: int)
    ensures ParsePrice(PriceText(c)) == Some(c)
  {
    ParseDecimalOfAmount(Abs(c));
    ParsePriceSigned(c < 0, AmountText(Abs(c)));
  }
}

=== FILE: objects.dfy ===
/**
 * Flat JSON objects as the `toJson` methods write them: `{"k1":v1,"k2":v2,...}`
 * with bare or quoted values and no white space. The lemmas here show that
 * `extractJsonValue` reads back every field of such an object, and that the
 * object is a single brace-delimited group for the array splitter.
 */
module Objects {
  import opened Text
  import opened Codec

  /** One `"key":value` member; a quoted value's text is stored without its quotes. */
  datatype Field = Bare(key: string, text: string) | Quoted(key: string, text: string)

  function ValuePart(f: Field): string {
    match f
    case Bare(_, t) => t
    case Quoted(_, t) => "\"" + t + "\""
  }

  function FieldText(f: Field): string {
    KeyPattern(f.key) + ValuePart(f)
  }

  /** The members of an object after its `{`: each followed by `,`, the last by `}`. */
  function Members(fs: seq<Field>): string
    requires |fs| > 0
  {
    if |fs| == 1 then FieldText(fs[0]) + "}" else FieldText(fs[0]) + ("," + Members(fs[1..]))
  }

  /** The last member is closed by `}`. */
  lemma {:induction false} MembersEnd(fs: seq<Field>)
    requires |fs| > 0
    ensures var m := Members(fs); |m| > 0 && m[|m| - 1] == '}'
  {
    if |fs| > 1 {
      MembersEnd(fs[1..]);
    }
  }

  function Render(fs: seq<Field>): string
    requires |fs| > 0
  {
    "{" + Members(fs)
  }

  predicate KeyChar(c: char) {
    'a' <= c <= 'z' || c == '_'
  }

  predicate KeyOk(k: string) {
    |k| > 0 && forall i :: 0 <= i < |k| ==> KeyChar(k[i])
  }

  /** A bare value that `extractJsonValue` reads whole: no quote, no delimiter, not starting with white space. */
  predicate BareOk(t: string) {
    && t != []
    && !IsSpace(t[0])
    && forall i :: 0 <= i < |t| ==> t[i] !in BareDelims && t[i] != '"'
  }

  predicate FieldOk(f: Field) {
    && KeyOk(f.key)
    && match f
       case Bare(_, t) => BareOk(t)
       case Quoted(_, t) => '"' !in t
  }

  /** Well-formed members with pairwise distinct keys. */
  predicate FieldsOk(fs: seq<Field>) {
    && |fs| > 0
    && (forall i :: 0 <= i < |fs| ==> FieldOk(fs[i]))
    && (forall i, j :: 0 <= i < j < |fs| ==> fs[i].key != fs[j].key)
  }

  /** Four well-formed members with pairwise distinct keys form a well-formed object. */
  lemma FieldsOkOfFour(f0: Field, f1: Field, f2: Field, f3: Field)
    requires FieldOk(f0) && FieldOk(f1) && FieldOk(f2) && FieldOk(f3)
    requires f0.key != f1.key && f0.key != f2.key && f0.key != f3.key
    requires f1.key != f2.key && f1.key != f3.key && f2.key != f3.key
    ensures FieldsOk([f0, f1, f2, f3])
  {
  }

  /** Where each character of a search pattern `"k":` sits. */
  lemma PatternLayout(k: string)
    ensures |KeyPattern(k)| == |k| + 3
    ensures KeyPattern(k)[0] == '"'
    ensures forall m :: 0 <= m < |k| ==> KeyPattern(k)[1 + m] == k[m]
    ensures KeyPattern(k)[|k| + 1] == '"' && KeyPattern(k)[|k| + 2] == ':'
  {
  }

  /** Where each character of a member followed by its separator sits. */
  lemma FieldLayout(f: Field, sep: char, more: string)
    ensures var L := FieldText(f) + [sep] + more;
      && var K := |f.key|;
      && |L| == |FieldText(f)| + 1 + |more|
      && |FieldText(f)| == K + 3 + |ValuePart(f)|
      && L[0] == '"'
      && (forall m :: 0 <= m < K ==> L[1 + m] == f.key[m])
      && L[K + 1] == '"' && L[K + 2] == ':'
      && (forall m :: 0 <= m < |ValuePart(f)| ==> L[K + 3 + m] == ValuePart(f)[m])
      && L[|FieldText(f)|] == sep
  {
    MemberLayout(f.key, ValuePart(f), sep, more);
  }

  /** `FieldLayout` for any key and value text. */
  lemma MemberLayout(key: string, v: string, sep: char, more: string)
    ensures var L := KeyPattern(key) + v + [sep] + more;
      && var K := |key|;
      && |L| == K + 3 + |v| + 1 + |more|
      && L[0] == '"'
      && (forall m :: 0 <= m < K ==> L[1 + m] == key[m])
      && L[K + 1] == '"' && L[K + 2] == ':'
      && (forall m :: 0 <= m < |v| ==> L[K + 3 + m] == v[m])
      && L[K + 3 + |v|] == sep
  {
    var L := KeyPattern(key) + v + [sep] + more;
    assert L == "\"" + (key + ("\":" + (v + ([sep] + more))));
  }

  /** One differing character rules out a match. */
  lemma Mismatch(s: string, pat: string, i: nat, m: nat)
    requires m < |pat|
    requires i + m >= |s| || s[i + m] != pat[m]
    ensures !MatchAt(s, pat, i)
  {
    if MatchAt(s, pat, i) {
      MatchChar(s, pat, i, m);
    }
  }

  /** The search pattern of one key does not match at the start of another key's pattern. */
  lemma KeyPatternsDiffer(a: string, k: string, rest: string)
    requires KeyOk(a) && KeyOk(k) && a != k
    ensures !MatchAt(KeyPattern(a) + rest, KeyPattern(k), 0)
  {
    var L := KeyPattern(a) + rest;
    var pat := KeyPattern(k);
    PatternLayout(a);
    PatternLayout(k);
    if |k| == |a| {
      var m := Differ(k, a);
      assert L[1 + m] == a[m];
      Mismatch(L, pat, 0, 1 + m);
    } else if |k| < |a| {
      assert L[1 + |k|] == a[|k|] && KeyChar(a[|k|]);
      Mismatch(L, pat, 0, 1 + |k|);
    } else {
      assert L[1 + |a|] == '"' && KeyChar(k[|a|]);
      Mismatch(L, pat, 0, 1 + |a|);
    }
  }

  /** The opening quote of a member with another key does not start `"k":`. */
  lemma NoMatchAtKey(f: Field, sep: char, more: string, k: string)
    requires FieldOk(f) && KeyOk(k) && k != f.key
    ensures !MatchAt(FieldText(f) + [sep] + more, KeyPattern(k), 0)
  {
    assert FieldText(f) + [sep] + more == KeyPattern(f.key) + (ValuePart(f) + [sep] + more);
    KeyPatternsDiffer(f.key, k, ValuePart(f) + [sep] + more);
  }

  /** The opening quote of a quoted value does not start `"k":`. */
  lemma NoMatchAtValue(f: Field, sep: char, more: string, k: string)
    requires FieldOk(f) && f.Quoted? && KeyOk(k) && (sep == ',' || sep == '}')
    ensures !MatchAt(FieldText(f) + [sep] + more, KeyPattern(k), |f.key| + 3)
  {
    var L := FieldText(f) + [sep] + more;
    var pat := KeyPattern(k);
    var i := |f.key| + 3;
    var t := f.text;
    FieldLayout(f, sep, more);
    PatternLayout(k);
    var V := ValuePart(f);
    assert V == "\"" + t + "\"";
    if |t| > |k| {
      assert L[i + 1 + |k|] == V[1 + |k|] == t[|k|];
      assert t[|k|] in t;
      Mismatch(L, pat, i, 1 + |k|);
    } else if |t| == |k| {
      assert L[i + 2 + |k|] == sep;
      Mismatch(L, pat, i, 2 + |k|);
    } else {
      assert L[i + 1 + |t|] == V[1 + |t|] == '"';
      assert KeyChar(k[|t|]);
      Mismatch(L, pat, i, 1 + |t|);
    }
  }

  /** No occurrence of `"k":` starts inside the key part of a member or at its colon. */
  lemma NoMatchInKeyPart(a: string, rest: string, k: string, i: nat)
    requires KeyOk(a) && KeyOk(k) && 0 < i <= |a| + 2
    ensures !MatchAt(KeyPattern(a) + rest, KeyPattern(k), i)
  {
    var L := KeyPattern(a) + rest;
    var pat := KeyPattern(k);
    PatternLayout(a);
    PatternLayout(k);
    assert L[i] == KeyPattern(a)[i];
    if i <= |a| {
      assert KeyChar(a[i - 1]);
      Mismatch(L, pat, i, 0);
    } else if i == |a| + 1 {
      assert L[i + 1] == ':' && KeyChar(k[0]);
      Mismatch(L, pat, i, 1);
    } else {
      Mismatch(L, pat, i, 0);
    }
  }

  /** No occurrence of `"k":` starts inside a quoted value after its opening quote. */
  lemma NoMatchInQuoted(f: Field, sep: char, more: string, k: string, i: nat)
    requires FieldOk(f) && f.Quoted? && KeyOk(k) && (sep == ',' || sep == '}')
    requires |f.key| + 3 < i < |FieldText(f)|
    ensures !MatchAt(FieldText(f) + [sep] + more, KeyPattern(k), i)
  {
    var L := FieldText(f) + [sep] + more;
    var pat := KeyPattern(k);
    var t := f.text;
    var V := ValuePart(f);
    FieldLayout(f, sep, more);
    PatternLayout(k);
    var m := i - |f.key| - 3;
    assert L[i] == V[m];
    assert V == "\"" + t + "\"";
    if m <= |t| {
      assert V[m] == t[m - 1];
      assert t[m - 1] in t;
      Mismatch(L, pat, i, 0);
    } else {
      assert L[i + 1] == sep;
      assert KeyChar(k[0]);
      Mismatch(L, pat, i, 1);
    }
  }

  /** No occurrence of `"k":` starts inside the value of a member or at its separator. */
  lemma NoMatchInValuePart(f: Field, sep: char, more: string, k: string, i: nat)
    requires FieldOk(f) && KeyOk(k) && (sep == ',' || sep == '}')
    requires |f.key| + 3 <= i <= |FieldText(f)|
    ensures !MatchAt(FieldText(f) + [sep] + more, KeyPattern(k), i)
  {
    var L := FieldText(f) + [sep] + more;
    var pat := KeyPattern(k);
    FieldLayout(f, sep, more);
    PatternLayout(k);
    if i == |FieldText(f)| {
      Mismatch(L, pat, i, 0);
    } else if f.Bare? {
      var m := i - |f.key| - 3;
      assert L[i] == ValuePart(f)[m] == f.text[m];
      Mismatch(L, pat, i, 0);
    } else if i == |f.key| + 3 {
      NoMatchAtValue(f, sep, more, k);
    } else {
      NoMatchInQuoted(f, sep, more, k, i);
    }
  }

  /** No occurrence of `"k":` starts inside a member with another key, nor at its separator. */
  lemma NoMatchInField(f: Field, sep: char, more: string, k: string)
    requires FieldOk(f) && KeyOk(k) && k != f.key && (sep == ',' || sep == '}')
    ensures NoMatchIn(FieldText(f) + [sep] + more, KeyPattern(k), 0, |FieldText(f)| + 1)
  {
    forall i: nat | i < |FieldText(f)| + 1
      ensures !MatchAt(FieldText(f) + [sep] + more, KeyPattern(k), i)
    {
      if i == 0 {
        NoMatchAtKey(f, sep, more, k);
      } else if i <= |f.key| + 2 {
        assert FieldText(f) + [sep] + more == KeyPattern(f.key) + (ValuePart(f) + [sep] + more);
        NoMatchInKeyPart(f.key, ValuePart(f) + [sep] + more, k, i);
      } else {
        NoMatchInValuePart(f, sep, more, k, i);
      }
    }
  }

  /** The members of an object, written out as one member, its separator and the rest. */
  lemma MembersUnfold(fs: seq<Field>)
    requires |fs| > 0
    ensures Members(fs) == FieldText(fs[0]) + ([if |fs| == 1 then '}' else ','] + (if |fs| == 1 then "" else Members(fs[1..])))
  {
  }

  /** A bare value followed by its separator reads back whole. */
  lemma ValueOfBareMember(t: string, sep: char, more: string)
    requires BareOk(t) && (sep == ',' || sep == '}')
    ensures ValueText(t + ([sep] + more)) == t
  {
    ValueOfBare("", t, sep, more);
    assert "" + t + [sep] + more == t + ([sep] + more);
  }

  /** A quoted value reads back as the text between its quotes. */
  lemma ValueOfQuotedMember(t: string, sep: char, more: string)
    requires '"' !in t
    ensures ValueText(("\"" + t + "\"") + ([sep] + more)) == t
  {
    QuotedRegroup(t, [sep] + more);
    ValueOfQuotedAfter(t, [sep] + more);
  }

  lemma QuotedRegroup(t: string, rest: string)
    ensures ("\"" + t + "\"") + rest == "\"" + (t + ("\"" + rest))
  {
  }

  /** The value of the first member not preceded by its key reads back. */
  lemma ExtractFirst(pre: string, f: Field, sep: char, more: string)
    requires FieldOk(f) && (sep == ',' || sep == '}')
    requires NoMatchIn(pre + (FieldText(f) + ([sep] + more)), KeyPattern(f.key), 0, |pre|)
    ensures ExtractValue(pre + (FieldText(f) + ([sep] + more)), f.key) == f.text
  {
    var rest := ValuePart(f) + ([sep] + more);
    assert pre + (FieldText(f) + ([sep] + more)) == pre + KeyPattern(f.key) + rest;
    ExtractAt(pre, f.key, rest);
    if f.Bare? {
      ValueOfBareMember(f.text, sep, more);
    } else {
      ValueOfQuotedMember(f.text, sep, more);
    }
  }

  /** A member with another key adds no occurrence of `"k":` in front of the rest. */
  lemma SkipMember(pre: string, f: Field, sep: char, more: string, k: string)
    requires FieldOk(f) && KeyOk(k) && k != f.key && (sep == ',' || sep == '}')
    requires NoMatchIn(pre + (FieldText(f) + ([sep] + more)), KeyPattern(k), 0, |pre|)
    ensures NoMatchIn((pre + FieldText(f) + [sep]) + more, KeyPattern(k), 0, |pre + FieldText(f) + [sep]|)
  {
    var pat := KeyPattern(k);
    var L := FieldText(f) + [sep] + more;
    var pre' := pre + FieldText(f) + [sep];
    NoMatchInField(f, sep, more, k);
    assert pre + (FieldText(f) + ([sep] + more)) == pre + L;
    assert pre + L == pre' + more;
    forall i: nat | i < |pre'|
      ensures !MatchAt(pre' + more, pat, i)
    {
      if i >= |pre| {
        MatchShift(pre, L, pat, i - |pre|);
      }
    }
  }

  /** Dropping the first member keeps the members well formed and distinct. */
  lemma FieldsOkTail(fs: seq<Field>)
    requires FieldsOk(fs) && |fs| > 1
    ensures FieldsOk(fs[1..])
  {
    var t := fs[1..];
    assert forall i :: 0 <= i < |t| ==> t[i] == fs[i + 1];
  }

  /** Splitting off the first of several members, seen from after a prefix. */
  lemma MembersCons(pre: string, fs: seq<Field>)
    requires |fs| > 1
    ensures pre + Members(fs) == pre + (FieldText(fs[0]) + ([','] + Members(fs[1..])))
    ensures pre + Members(fs) == (pre + FieldText(fs[0]) + [',']) + Members(fs[1..])
  {
    RegroupAfter(pre, FieldText(fs[0]), ',', Members(fs[1..]));
  }

  /** The members text of two fields. */
  lemma MembersOfTwo(a: Field, b: Field)
    ensures Members([a, b]) == FieldText(a) + ("," + (FieldText(b) + "}"))
  {
    assert [a, b][1..] == [b];
  }

  /** The members text of four fields. */
  lemma MembersOfFour(a: Field, b: Field, c: Field, d: Field)
    ensures Members([a, b, c, d]) == FieldText(a) + ("," + (FieldText(b) + ("," + Members([c, d]))))
  {
    assert [a, b, c, d][1..] == [b, c, d];
    assert [b, c, d][1..] == [c, d];
  }

  /** `extractJsonValue` reads the value of a member once no earlier text can match its key. */
  lemma {:induction false} ExtractMember(pre: string, fs: seq<Field>, j: nat)
    requires FieldsOk(fs) && j < |fs|
    requires NoMatchIn(pre + Members(fs), KeyPattern(fs[j].key), 0, |pre|)
    ensures ExtractValue(pre + Members(fs), fs[j].key) == fs[j].text
    decreases j, 1
  {
    if j == 0 {
      assert FieldOk(fs[0]);
      MembersUnfold(fs);
      ExtractFirst(pre, fs[0], if |fs| == 1 then '}' else ',', if |fs| == 1 then "" else Members(fs[1..]));
    } else {
      ExtractPastFirst(pre + Members(fs), pre, fs, j);
    }
  }

  /** A later member of `json` is read back after skipping the first one, which has another key. */
  lemma {:induction false} ExtractPastFirst(json: string, pre: string, fs: seq<Field>, j: nat)
    requires FieldsOk(fs) && 0 < j < |fs| && json == pre + Members(fs)
    requires NoMatchIn(json, KeyPattern(fs[j].key), 0, |pre|)
    ensures ExtractValue(json, fs[j].key) == fs[j].text
    decreases j, 0
  {
    var t := fs[1..];
    var k := fs[j].key;
    assert t[j - 1] == fs[j];
    FieldsOkTail(fs);
    MembersCons(pre, fs);
    assert FieldOk(fs[0]);
    SkipMember(pre, fs[0], ',', Members(t), k);
    var pre' := pre + FieldText(fs[0]) + [','];
    assert json == pre' + Members(t);
    ExtractMember(pre', t, j - 1);
    assert ExtractValue(pre' + Members(t), t[j - 1].key) == t[j - 1].text;
  }

  /**
   * In a two-member object whose first member is well formed, the first value reads back
   * and the second is read from the text after its key, whatever that text holds.
   */
  lemma ExtractOfTwo(f0: Field, f1: Field)
    requires FieldOk(f0) && KeyOk(f1.key) && f0.key != f1.key
    ensures ExtractValue(Render([f0, f1]), f0.key) == f0.text
    ensures ExtractValue(Render([f0, f1]), f1.key) == ValueText(ValuePart(f1) + "}")
  {
    ExtractFirstOfTwo(f0, f1);
    ExtractSecondOfTwo(f0, f1);
  }

  /** The two-member object, cut after the first member and after the second key. */
  lemma TwoLayout(f0: Field, f1: Field)
    ensures var pre := "{" + FieldText(f0) + [','];
      && Render([f0, f1]) == pre + (FieldText(f1) + "}")
      && Render([f0, f1]) == pre + KeyPattern(f1.key) + (ValuePart(f1) + "}")
  {
    MembersOfTwo(f0, f1);
    var more := FieldText(f1) + "}";
    RegroupAfter("{", FieldText(f0), ',', more);
    ConcatAssoc(KeyPattern(f1.key), ValuePart(f1), "}");
    ConcatAssoc("{" + FieldText(f0) + [','], KeyPattern(f1.key), ValuePart(f1) + "}");
  }

  lemma ExtractSecondOfTwo(f0: Field, f1: Field)
    requires FieldOk(f0) && KeyOk(f1.key) && f0.key != f1.key
    ensures ExtractValue(Render([f0, f1]), f1.key) == ValueText(ValuePart(f1) + "}")
  {
    var more := FieldText(f1) + "}";
    var json := Render([f0, f1]);
    var pre := "{" + FieldText(f0) + [','];
    TwoLayout(f0, f1);
    MembersOfTwo(f0, f1);
    assert !MatchAt(json, KeyPattern(f1.key), 0) by {
      Mismatch(json, KeyPattern(f1.key), 0, 0);
    }
    SkipMember("{", f0, ',', more, f1.key);
    ExtractAt(pre, f1.key, ValuePart(f1) + "}");
  }

  lemma ExtractFirstOfTwo(f0: Field, f1: Field)
    requires FieldOk(f0)
    ensures ExtractValue(Render([f0, f1]), f0.key) == f0.text
  {
    MembersOfTwo(f0, f1);
    var more := FieldText(f1) + "}";
    var json := Render([f0, f1]);
    assert json == "{" + (FieldText(f0) + ([','] + more));
    assert !MatchAt(json, KeyPattern(f0.key), 0) by {
      Mismatch(json, KeyPattern(f0.key), 0, 0);
    }
    ExtractFirst("{", f0, ',', more);
  }

  /** Every member of a well-formed object reads back as its own value text. */
  lemma ExtractRendered(fs: seq<Field>, j: nat)
    requires FieldsOk(fs) && j < |fs|
    ensures ExtractValue(Render(fs), fs[j].key) == fs[j].text
  {
    var pat := KeyPattern(fs[j].key);
    assert !MatchAt(Render(fs), pat, 0) by {
      if MatchAt(Render(fs), pat, 0) {
        MatchChar(Render(fs), pat, 0, 0);
      }
    }
    ExtractMember("{", fs, j);
  }

  /** An object with one `{` at the front, one `}` at the end, and no brace between. */
  predicate FlatObject(o: string) {
    && |o| >= 2 && o[0] == '{' && o[|o| - 1] == '}'
    && forall i :: 0 < i < |o| - 1 ==> o[i] != '{' && o[i] != '}'
  }

  predicate BraceFree(s: string) {
    '{' !in s && '}' !in s
  }

  /** A member whose value has no brace has no brace at all. */
  lemma FieldBraceFree(f: Field)
    requires KeyOk(f.key) && BraceFree(f.text)
    ensures BraceFree(FieldText(f))
  {
    assert forall i :: 0 <= i < |f.key| ==> f.key[i] != '{' && f.key[i] != '}';
  }

  /** The members text ends in the only brace it has. */
  lemma {:induction false} MembersShape(fs: seq<Field>)
    requires |fs| > 0
    requires forall i :: 0 <= i < |fs| ==> KeyOk(fs[i].key) && BraceFree(fs[i].text)
    ensures var m := Members(fs); |m| > 0 && m[|m| - 1] == '}' && BraceFree(m[..|m| - 1])
  {
    FieldBraceFree(fs[0]);
    var m := Members(fs);
    if |fs| == 1 {
      assert m[..|m| - 1] == FieldText(fs[0]);
    } else {
      MembersShape(fs[1..]);
      var n := Members(fs[1..]);
      assert m == FieldText(fs[0]) + "," + n;
      assert m[..|m| - 1] == FieldText(fs[0]) + "," + n[..|n| - 1];
    }
  }

  /** An object whose values have no brace is flat. */
  lemma RenderFlat(fs: seq<Field>)
    requires |fs| > 0
    requires forall i :: 0 <= i < |fs| ==> KeyOk(fs[i].key) && BraceFree(fs[i].text)
    ensures FlatObject(Render(fs))
  {
    MembersShape(fs);
    var m := Members(fs);
    var o := Render(fs);
    forall i | 0 < i < |o| - 1 ensures o[i] != '{' && o[i] != '}' {
      assert o[i] == m[..|m| - 1][i - 1];
    }
  }
}

=== FILE: persistence.dfy ===
/**
 * `loadData`, `createDefaultData` and `saveData` (main.cpp:179-306) as pure functions
 * between the three JSON files' contents and the catalog.
 */
module Persistence {
  import opened Basics
  import opened Numbers
  import opened Codec
  import opened Objects
  import opened Arrays
  import opened Entities
  import opened Catalog

  /** The contents of products.json, users.json and reviews.json; None for a file that cannot be opened. */
  datatype Files = Files(products: Option<string>, users: Option<string>, reviews: Option<string>)

  /** `readAll`: a file that cannot be opened, or is empty, reads as the empty array. */
  function ReadAll(f: Option<string>): (r: string)
    ensures r != []
    ensures f.Some? && f.value != [] ==> r == f.value
    ensures f.None? || f.value == [] ==> SplitArray(r) == []
  {
    if f.None? || f.value == [] then
      assert SplitArray("[]") == [];
      "[]"
    else f.value
  }

  /** The records of the fragments that decode, in fragment order; the others are skipped. */
  function Decoded<T>(frags: seq<string>, decode: string -> Option<T>): (r: seq<T>)
    ensures |r| <= |frags|
  {
    if frags == [] then []
    else
      var rest := Decoded(frags[1..], decode);
      match decode(frags[0])
      case None => rest
      case Some(x) => [x] + rest
  }

  lemma {:induction false} DecodedAppend<T>(a: seq<string>, b: seq<string>, decode: string -> Option<T>)
    ensures Decoded(a + b, decode) == Decoded(a, decode) + Decoded(b, decode)
  {
    if a == [] {
      assert a + b == b;
    } else {
      assert (a + b)[0] == a[0] && (a + b)[1..] == a[1..] + b;
      DecodedAppend(a[1..], b, decode);
    }
  }

  /** A fragment that fails to decode is skipped; the fragments around it still load, in order. */
  lemma DecodedSkip<T>(a: seq<string>, bad: string, b: seq<string>, decode: string -> Option<T>)
    requires decode(bad).None?
    ensures Decoded(a + [bad] + b, decode) == Decoded(a, decode) + Decoded(b, decode)
  {
    DecodedAppend(a + [bad], b, decode);
    DecodedAppend(a, [bad], decode);
    assert [bad][1..] == [];
  }

  /** Fragments that each decode to a record give exactly those records. */
  lemma {:induction false} DecodedEach<T>(frags: seq<string>, decode: string -> Option<T>, xs: seq<T>)
    requires |frags| == |xs|
    requires forall i :: 0 <= i < |frags| ==> decode(frags[i]) == Some(xs[i])
    ensures Decoded(frags, decode) == xs
  {
    if frags != [] {
      assert decode(frags[0]) == Some(xs[0]);
      DecodedEach(frags[1..], decode, xs[1..]);
      assert xs == [xs[0]] + xs[1..];
    }
  }

  /** The counter after loading: `max(counter, id + 1)` over the loaded ids, in order. */
  function Advance(counter: int, ids: seq<int>): (r: int)
    ensures r >= counter
    ensures forall i :: 0 <= i < |ids| ==> ids[i] < r
    ensures r == counter || r - 1 in ids
    decreases |ids|
  {
    if ids == [] then counter
    else
      var r := Advance(Max(counter, ids[0] + 1), ids[1..]);
      assert forall i :: 1 <= i < |ids| ==> ids[i] == ids[1..][i - 1];
      assert r - 1 in ids[1..] ==> r - 1 in ids;
      r
  }

  function ProductIds(ps: seq<Product>): seq<int> {
    seq(|ps|, i requires 0 <= i < |ps| => ps[i].id)
  }

  function UserIds(us: seq<User>): seq<int> {
    seq(|us|, i requires 0 <= i < |us| => us[i].id)
  }

  /** The catalog of a fresh process: empty, with the counters' initial values 1000 and 100. */
  const Fresh: Store := Store([], [], [], 1000, 100)

  /** `createDefaultData`: four products, two users, four reviews; prices in cents. */
  const Defaults: Store := Store(
    [Product(1000, "Mechanical Keyboard", "Electronics", 9999),
     Product(1001, "Wireless Mouse", "Electronics", 4550),
     Product(1002, "The Silent Patient Book", "Books", 1200),
     Product(1003, "Blue Hoodie", "Apparel", 6500)],
    [User(100, "Alice Johnson"), User(101, "Bob Smith")],
    [Review(100, 1000, 5, "Excellent keyboard for coding."),
     Review(100, 1001, 4, "Reliable mouse, good battery life."),
     Review(101, 1002, 3, "A decent thriller, a bit slow."),
     Review(101, 1003, 5, "Comfy and warm!")],
    1004, 102)

  function ProductTexts(ps: seq<Product>): seq<string> {
    seq(|ps|, i requires 0 <= i < |ps| => ProductJson(ps[i]))
  }

  function UserTexts(us: seq<User>): seq<string> {
    seq(|us|, i requires 0 <= i < |us| => UserJson(us[i]))
  }

  function ReviewTexts(rs: seq<Review>): seq<string> {
    seq(|rs|, i requires 0 <= i < |rs| => ReviewJson(rs[i]))
  }

  /**
   * `saveData`: each collection written as an array of its records' `toJson` texts. Every
   * file is written, and none reads back as a missing file.
   */
  function Save(s: Store): (r: Files)
    ensures r.products.Some? && r.users.Some? && r.reviews.Some?
    ensures ReadAll(r.products) == r.products.value && ReadAll(r.users) == r.users.value
    ensures ReadAll(r.reviews) == r.reviews.value
  {
    Files(Some(ArrayText(ProductTexts(s.products))),
          Some(ArrayText(UserTexts(s.users))),
          Some(ArrayText(ReviewTexts(s.reviews))))
  }

  /**
   * The default data: products 1000 to 1003 and users 100 and 101, in that order, four
   * reviews, and counters that are exactly what counting past those ids from the fresh
   * counters gives.
   */
  lemma DefaultsContents()
    ensures ProductIds(Defaults.products) == [1000, 1001, 1002, 1003]
    ensures UserIds(Defaults.users) == [100, 101]
    ensures |Defaults.reviews| == 4
    ensures Defaults.nextProductId == Advance(Fresh.nextProductId, ProductIds(Defaults.products)) == 1004
    ensures Defaults.nextUserId == Advance(Fresh.nextUserId, UserIds(Defaults.users)) == 102
  {
    assert ProductIds(Defaults.products) == [1000, 1001, 1002, 1003];
    assert UserIds(Defaults.users) == [100, 101];
    AdvancePast(1000, [1000, 1001, 1002, 1003], 1003);
    AdvancePast(100, [100, 101], 101);
  }

  /** The default ids are below the default counters. */
  lemma DefaultsCounted()
    ensures Counted(Defaults)
  {
  }

  /** Counters advanced past the loaded ids are above every loaded id. */
  lemma AdvancedCounted(prior: Store, ps: seq<Product>, us: seq<User>, rs: seq<Review>)
    ensures Counted(Store(ps, us, rs, Advance(prior.nextProductId, ProductIds(ps)), Advance(prior.nextUserId, UserIds(us))))
  {
    assert forall i :: 0 <= i < |ps| ==> ps[i].id == ProductIds(ps)[i];
    assert forall i :: 0 <= i < |us| ==> us[i].id == UserIds(us)[i];
  }

  /** The catalog `loadData` leaves, and the files it writes when it seeds the defaults. */
  datatype Loaded = Loaded(store: Store, written: Option<Files>)

  /**
   * `loadData`: decode every fragment of the three files, skipping those that fail, and
   * advance the counters past the loaded ids. When nothing at all decodes, the catalog
   * becomes the default data, with the counters set to 1004 and 102, and is saved.
   */
  function Load(prior: Store, files: Files): (r: Loaded)
    ensures Counted(r.store)
    ensures r.written.Some? ==> r.store == Defaults && r.written.value == Save(Defaults)
    ensures r.written.None? ==> r.store.nextProductId >= prior.nextProductId && r.store.nextUserId >= prior.nextUserId
    ensures r.written.None? ==> r.store.products != [] || r.store.users != [] || r.store.reviews != []
    ensures r.written.Some? <==>
      && Decoded(SplitArray(ReadAll(files.products)), DecodeProduct) == []
      && Decoded(SplitArray(ReadAll(files.users)), DecodeUser) == []
      && Decoded(SplitArray(ReadAll(files.reviews)), DecodeReview) == []
  {
    var ps := Decoded(SplitArray(ReadAll(files.products)), DecodeProduct);
    var us := Decoded(SplitArray(ReadAll(files.users)), DecodeUser);
    var rs := Decoded(SplitArray(ReadAll(files.reviews)), DecodeReview);
    if ps == [] && us == [] && rs == [] then
      DefaultsCounted();
      Loaded(Defaults, Some(Save(Defaults)))
    else
      AdvancedCounted(prior, ps, us, rs);
      Loaded(Store(ps, us, rs, Advance(prior.nextProductId, ProductIds(ps)), Advance(prior.nextUserId, UserIds(us))), None)
  }

  /**
   * When not one fragment of the three files decodes, loading seeds the default data and
   * writes it out; the counters are then exactly 1004 and 102, whatever they were.
   */
  lemma SeedWhenNothingDecodes(prior: Store, files: Files)
    requires Decoded(SplitArray(ReadAll(files.products)), DecodeProduct) == []
    requires Decoded(SplitArray(ReadAll(files.users)), DecodeUser) == []
    requires Decoded(SplitArray(ReadAll(files.reviews)), DecodeReview) == []
    ensures Load(prior, files) == Loaded(Defaults, Some(Save(Defaults)))
    ensures Load(prior, files).store.nextProductId == 1004 && Load(prior, files).store.nextUserId == 102
  {
  }

  /** With every file missing, loading seeds the default data and writes it out. */
  lemma SeedWhenMissing(prior: Store)
    ensures Load(prior, Files(None, None, None)) == Loaded(Defaults, Some(Save(Defaults)))
  {
    assert SplitArray("[]") == [];
    SeedWhenNothingDecodes(prior, Files(None, None, None));
  }

  /** When some fragment decodes, nothing is seeded and the loaded records are kept. */
  lemma NoSeedWhenSomethingDecodes(prior: Store, files: Files)
    requires || Decoded(SplitArray(ReadAll(files.products)), DecodeProduct) != []
             || Decoded(SplitArray(ReadAll(files.users)), DecodeUser) != []
             || Decoded(SplitArray(ReadAll(files.reviews)), DecodeReview) != []
    ensures Load(prior, files).written.None?
    ensures var ps := Decoded(SplitArray(ReadAll(files.products)), DecodeProduct);
      var us := Decoded(SplitArray(ReadAll(files.users)), DecodeUser);
      var rs := Decoded(SplitArray(ReadAll(files.reviews)), DecodeReview);
      Load(prior, files).store
        == Store(ps, us, rs, Advance(prior.nextProductId, ProductIds(ps)), Advance(prior.nextUserId, UserIds(us)))
  {
  }

  /** Every default review has a rating of 1 to 5 and names a default user and a default product. */
  lemma DefaultsReferents()
    ensures forall i :: 0 <= i < |Defaults.reviews| ==> Sound(Defaults.users, Defaults.products, Defaults.reviews[i])
  {
    var us := Defaults.users;
    var ps := Defaults.products;
    assert us[0].id == 100 && us[1].id == 101;
    assert ps[0].id == 1000 && ps[1].id == 1001 && ps[2].id == 1002 && ps[3].id == 1003;
  }

  /** No two default reviews share a user and a product. */
  lemma DefaultsUnique()
    ensures Unique(Defaults.reviews)
  {
    var rs := Defaults.reviews;
    assert rs[1..][1..][1..][1..] == [];
    assert !HasReviewed(rs[1..][1..][1..], 101, 1002);
    assert !HasReviewed(rs[1..][1..], 100, 1001);
    assert !HasReviewed(rs[1..], 100, 1000);
  }

  /** The default data is consistent: valid ratings, existing referents, unique pairs. */
  lemma DefaultsConsistent()
    ensures Consistent(Defaults) && Counted(Defaults)
  {
    DefaultsCounted();
    DefaultsReferents();
    DefaultsUnique();
  }

  /** A text that saving and loading carry unchanged: nothing to escape and no brace. */
  predicate SafeText(t: string) {
    Plain(t) && BraceFree(t)
  }

  /** A catalog whose every record survives a save and a load unchanged. */
  predicate Storable(s: Store) {
    && (forall i :: 0 <= i < |s.products| ==>
          IsInt32(s.products[i].id) && SafeText(s.products[i].name) && SafeText(s.products[i].category))
    && (forall i :: 0 <= i < |s.users| ==> IsInt32(s.users[i].id) && SafeText(s.users[i].name))
    && (forall i :: 0 <= i < |s.reviews| ==>
          && IsInt32(s.reviews[i].userId) && IsInt32(s.reviews[i].productId)
          && IsInt32(s.reviews[i].rating) && SafeText(s.reviews[i].comment))
  }

  lemma NumbersBraceFree(n: int, c: int)
    ensures BraceFree(IntText(n)) && BraceFree(PriceText(c))
  {
    var a := IntText(n);
    var b := PriceText(c);
    assert forall i :: 0 <= i < |a| ==> a[i] != '{' && a[i] != '}';
    assert forall i :: 0 <= i < |b| ==> b[i] != '{' && b[i] != '}';
  }

  lemma ProductFlat(p: Product)
    requires BraceFree(p.name) && BraceFree(p.category)
    ensures FlatObject(ProductJson(p))
  {
    KeysOk();
    NumbersBraceFree(p.id, p.price);
    RenderFlat(ProductFields(p));
  }

  lemma UserFlat(u: User)
    requires BraceFree(u.name)
    ensures FlatObject(UserJson(u))
  {
    KeysOk();
    NumbersBraceFree(u.id, 0);
    RenderFlat(UserFields(u));
  }

  lemma ReviewFlat(r: Review)
    requires BraceFree(r.comment)
    ensures FlatObject(ReviewJson(r))
  {
    KeysOk();
    NumbersBraceFree(r.userId, 0);
    NumbersBraceFree(r.productId, 0);
    NumbersBraceFree(r.rating, 0);
    RenderFlat(ReviewFields(r));
  }

  /** A saved array is never empty, so it is read as written. */
  lemma ReadSaved(objs: seq<string>)
    ensures ReadAll(Some(ArrayText(objs))) == ArrayText(objs)
  {
    assert ArrayText(objs)[0] == '[';
  }

  /** Saved products load back unchanged and in order. */
  lemma ProductsReadBack(ps: seq<Product>)
    requires forall i :: 0 <= i < |ps| ==> IsInt32(ps[i].id) && SafeText(ps[i].name) && SafeText(ps[i].category)
    ensures Decoded(SplitArray(ReadAll(Some(ArrayText(ProductTexts(ps))))), DecodeProduct) == ps
  {
    var texts := ProductTexts(ps);
    forall i | 0 <= i < |texts| ensures FlatObject(texts[i]) && DecodeProduct(texts[i]) == Some(ps[i]) {
      ProductFlat(ps[i]);
      ProductRoundTripPlain(ps[i]);
    }
    ReadSaved(texts);
    SplitArrayText(texts);
    DecodedEach(texts, DecodeProduct, ps);
  }

  lemma UsersReadBack(us: seq<User>)
    requires forall i :: 0 <= i < |us| ==> IsInt32(us[i].id) && SafeText(us[i].name)
    ensures Decoded(SplitArray(ReadAll(Some(ArrayText(UserTexts(us))))), DecodeUser) == us
  {
    var texts := UserTexts(us);
    forall i | 0 <= i < |texts| ensures FlatObject(texts[i]) && DecodeUser(texts[i]) == Some(us[i]) {
      UserFlat(us[i]);
      UserRoundTripPlain(us[i]);
    }
    ReadSaved(texts);
    SplitArrayText(texts);
    DecodedEach(texts, DecodeUser, us);
  }

  lemma ReviewsReadBack(rs: seq<Review>)
    requires forall i :: 0 <= i < |rs| ==>
      && IsInt32(rs[i].userId) && IsInt32(rs[i].productId)
      && IsInt32(rs[i].rating) && SafeText(rs[i].comment)
    ensures Decoded(SplitArray(ReadAll(Some(ArrayText(ReviewTexts(rs))))), DecodeReview) == rs
  {
    var texts := ReviewTexts(rs);
    forall i | 0 <= i < |texts| ensures FlatObject(texts[i]) && DecodeReview(texts[i]) == Some(rs[i]) {
      ReviewFlat(rs[i]);
      ReviewRoundTripPlain(rs[i]);
    }
    ReadSaved(texts);
    SplitArrayText(texts);
    DecodedEach(texts, DecodeReview, rs);
  }

  /**
   * Saving and loading again gives back every record, in order; the counters are advanced
   * from the loading process's own counters past the loaded ids.
   */
  lemma SaveLoad(prior: Store, s: Store)
    requires Storable(s)
    requires s.products != [] || s.users != [] || s.reviews != []
    ensures Load(prior, Save(s)) == Loaded(
      Store(s.products, s.users, s.reviews,
            Advance(prior.nextProductId, ProductIds(s.products)),
            Advance(prior.nextUserId, UserIds(s.users))),
      None)
  {
    ProductsReadBack(s.products);
    UsersReadBack(s.users);
    ReviewsReadBack(s.reviews);
  }

  /** The loaded counter, when every id is below `bound` and the counter starts at or below it. */
  lemma AdvanceAtMost(counter: int, ids: seq<int>, bound: int)
    requires counter <= bound
    requires forall i :: 0 <= i < |ids| ==> ids[i] < bound
    ensures Advance(counter, ids) <= bound
  {
  }

  /** The loaded counter passes the largest id. */
  lemma AdvancePast(counter: int, ids: seq<int>, top: int)
    requires counter <= top + 1
    requires top in ids && forall i :: 0 <= i < |ids| ==> ids[i] <= top
    ensures Advance(counter, ids) == top + 1
  {
  }

  /** Deleting a product keeps a storable catalog storable. */
  lemma DeleteProductStorable(s: Store, pid: int)
    requires Storable(s) && DeleteProduct(s, pid).Success?
    ensures Storable(DeleteProduct(s, pid).value)
  {
    var t := DeleteProduct(s, pid).value;
    var k := ProductIndex(s.products, pid).value;
    assert forall i :: 0 <= i < |t.products| ==> t.products[i] in s.products;
    assert forall i :: 0 <= i < |t.reviews| ==> t.reviews[i] in s.reviews;
  }

  /** Counting from 1000 past products whose last has the largest id ends just after that id. */
  lemma AdvanceToLast(ps: seq<Product>, p: Product)
    requires |ps| > 0 && p == ps[|ps| - 1] && p.id >= 1000
    requires forall i :: 0 <= i < |ps| - 1 ==> ps[i].id < p.id
    ensures Advance(1000, ProductIds(ps)) == p.id + 1
  {
    var ids := ProductIds(ps);
    assert ids[|ps| - 1] == p.id;
    AdvancePast(1000, ids, p.id);
  }

  /** Without that last product, counting from 1000 stops at or below its id. */
  lemma AdvanceWithoutLast(ps: seq<Product>, p: Product)
    requires |ps| > 0 && p == ps[|ps| - 1] && p.id >= 1000
    requires forall i :: 0 <= i < |ps| - 1 ==> ps[i].id < p.id
    ensures Advance(1000, ProductIds(ps[..|ps| - 1])) <= p.id
  {
    var ids := ProductIds(ps[..|ps| - 1]);
    assert forall i :: 0 <= i < |ids| ==> ids[i] == ps[i].id;
    AdvanceAtMost(1000, ids, p.id);
  }

  /** Without that last product, counting from 1000 ends at its id when the id before it is one less. */
  lemma AdvanceToNextLargest(ps: seq<Product>, p: Product)
    requires |ps| > 1 && p == ps[|ps| - 1] && p.id >= 1000
    requires forall i :: 0 <= i < |ps| - 1 ==> ps[i].id < p.id
    requires ps[|ps| - 2].id == p.id - 1
    ensures Advance(1000, ProductIds(ps[..|ps| - 1])) == p.id
  {
    var ids := ProductIds(ps[..|ps| - 1]);
    assert forall i :: 0 <= i < |ids| ==> ids[i] == ps[i].id;
    assert ids[|ids| - 1] == p.id - 1;
    AdvancePast(1000, ids, p.id - 1);
  }

  /** The product counter a load of a saved catalog ends with. */
  lemma LoadedProductCounter(prior: Store, s: Store)
    requires Storable(s)
    requires s.products != [] || s.users != [] || s.reviews != []
    ensures Load(prior, Save(s)).store.nextProductId == Advance(prior.nextProductId, ProductIds(s.products))
  {
    SaveLoad(prior, s);
  }

  /** Loading, in a fresh process, a saved catalog whose last product has the largest id counts on from that id. */
  lemma CounterAfterLargest(s: Store, p: Product)
    requires Storable(s)
    requires |s.products| > 0 && p == s.products[|s.products| - 1] && p.id >= 1000
    requires forall i :: 0 <= i < |s.products| - 1 ==> s.products[i].id < p.id
    ensures Load(Fresh, Save(s)).store.nextProductId == p.id + 1
  {
    LoadedProductCounter(Fresh, s);
    AdvanceToLast(s.products, p);
  }

  /** Deleting the last product removes just that product and its reviews. */
  lemma DeleteLastProduct(s: Store, p: Product)
    requires |s.products| > 0 && p == s.products[|s.products| - 1]
    requires forall i :: 0 <= i < |s.products| - 1 ==> s.products[i].id < p.id
    ensures DeleteProduct(s, p.id).Success?
    ensures DeleteProduct(s, p.id).value.products == s.products[..|s.products| - 1]
    ensures DeleteProduct(s, p.id).value.users == s.users
  {
    var n := |s.products| - 1;
    assert ProductIndex(s.products, p.id) == Some(n);
  }

  /** Deleting the last product, which has the largest id, leaves every saved product id below it. */
  lemma CounterAfterDelete(s: Store, p: Product)
    requires Storable(s) && s.users != []
    requires |s.products| > 0 && p == s.products[|s.products| - 1] && p.id >= 1000
    requires forall i :: 0 <= i < |s.products| - 1 ==> s.products[i].id < p.id
    ensures DeleteProduct(s, p.id).Success?
    ensures Load(Fresh, Save(DeleteProduct(s, p.id).value)).store.nextProductId <= p.id
  {
    DeleteLastProduct(s, p);
    var t := DeleteProduct(s, p.id).value;
    DeleteProductStorable(s, p.id);
    LoadedProductCounter(Fresh, t);
    AdvanceWithoutLast(s.products, p);
  }

  /**
   * Ids are reused: if the product with the largest id is deleted and the catalog saved,
   * the next process to load it hands out an id no larger than the deleted one, where
   * before the deletion it would have handed out the next one.
   */
  lemma IdReuse(s: Store, p: Product)
    requires Storable(s) && s.users != []
    requires |s.products| > 0 && p == s.products[|s.products| - 1] && p.id >= 1000
    requires forall i :: 0 <= i < |s.products| - 1 ==> s.products[i].id < p.id
    ensures Load(Fresh, Save(s)).store.nextProductId == p.id + 1
    ensures AddProduct(Load(Fresh, Save(s)).store, p.name, p.category, p.price).1 == p.id + 1
    ensures var t := DeleteProduct(s, p.id);
      t.Success? && AddProduct(Load(Fresh, Save(t.value)).store, p.name, p.category, p.price).1 <= p.id
  {
    CounterAfterLargest(s, p);
    CounterAfterDelete(s, p);
  }

  /**
   * The deleted id is handed out again: when the product before the deleted one has the
   * next smaller id, a fresh process that loads the saved catalog gives its next product
   * exactly the deleted id.
   */
  lemma IdReused(s: Store, p: Product)
    requires Storable(s) && s.users != []
    requires |s.products| > 1 && p == s.products[|s.products| - 1] && p.id >= 1000
    requires forall i :: 0 <= i < |s.products| - 1 ==> s.products[i].id < p.id
    requires s.products[|s.products| - 2].id == p.id - 1
    ensures var t := DeleteProduct(s, p.id);
      t.Success? && AddProduct(Load(Fresh, Save(t.value)).store, p.name, p.category, p.price).1 == p.id
  {
    DeleteLastProduct(s, p);
    var t := DeleteProduct(s, p.id).value;
    DeleteProductStorable(s, p.id);
    LoadedProductCounter(Fresh, t);
    AdvanceToNextLargest(s.products, p);
  }
}

=== FILE: recommend.dfy ===
/**
 * The core of `getRecommendationsJson` (main.cpp:525-590): the category of the user's last
 * reviewed product, the unreviewed products in it, sorted by average rating from the
 * highest down, and the first three of them.
 */
module Recommend {
  import opened Basics
  import opened Entities
  import opened Catalog

  /** The sort key of a product: its average rating over the given reviews. */
  function Key(rs: seq<Review>, p: Product): real {
    AverageRating(rs, p.id)
  }

  /** The products of the category that the user has not reviewed, in catalog order. */
  function Candidates(ps: seq<Product>, rs: seq<Review>, uid: int, category: string): (r: seq<Product>)
    ensures |r| <= |ps|
    ensures forall i :: 0 <= i < |r| ==> r[i] in ps && r[i].category == category && !HasReviewed(rs, uid, r[i].id)
    ensures forall i :: 0 <= i < |ps| && ps[i].category == category && !HasReviewed(rs, uid, ps[i].id) ==> ps[i] in r
    ensures r == Filter(ps, (p: Product) => p.category == category && !HasReviewed(rs, uid, p.id))
  {
    if ps == [] then []
    else
      var rest := Candidates(ps[1..], rs, uid, category);
      assert forall i :: 1 <= i < |ps| ==> ps[i] == ps[1..][i - 1];
      if ps[0].category == category && !HasReviewed(rs, uid, ps[0].id) then [ps[0]] + rest else rest
  }

  /** Ordered from the highest average down: no product has a lower key than one after it. */
  predicate Descending(rs: seq<Review>, s: seq<Product>) {
    forall i, j :: 0 <= i < j < |s| ==> Key(rs, s[j]) <= Key(rs, s[i])
  }

  /** A product rated at least as high as every product of a descending list can go in front of it. */
  lemma ConsDescending(rs: seq<Review>, h: Product, t: seq<Product>)
    requires Descending(rs, t)
    requires forall j :: 0 <= j < |t| ==> Key(rs, t[j]) <= Key(rs, h)
    ensures Descending(rs, [h] + t)
  {
    var r := [h] + t;
    assert forall j :: 1 <= j < |r| ==> r[j] == t[j - 1];
  }

  /** Every product of `t`, an arrangement of `u` plus `x`, is rated at most `h` when `x` and all of `u` are. */
  lemma AllBelow(rs: seq<Review>, h: Product, t: seq<Product>, u: seq<Product>, x: Product)
    requires multiset(t) == multiset(u) + multiset{x}
    requires forall j :: 0 <= j < |u| ==> Key(rs, u[j]) <= Key(rs, h)
    requires Key(rs, x) <= Key(rs, h)
    ensures forall j :: 0 <= j < |t| ==> Key(rs, t[j]) <= Key(rs, h)
  {
    forall j | 0 <= j < |t| ensures Key(rs, t[j]) <= Key(rs, h) {
      assert t[j] in multiset(t);
      if t[j] != x {
        assert t[j] in multiset(u);
        var k :| 0 <= k < |u| && u[k] == t[j];
      }
    }
  }

  /** Places `x` in front of the first product whose key it exceeds. */
  function Insert(rs: seq<Review>, x: Product, s: seq<Product>): (r: seq<Product>)
    requires Descending(rs, s)
    ensures Descending(rs, r)
    ensures multiset(r) == multiset(s) + multiset{x}
  {
    if s == [] then [x]
    else if Key(rs, s[0]) < Key(rs, x) then
      ConsDescending(rs, x, s);
      [x] + s
    else
      var u := s[1..];
      assert s == [s[0]] + u;
      assert Descending(rs, u);
      var t := Insert(rs, x, u);
      AllBelow(rs, s[0], t, u, x);
      ConsDescending(rs, s[0], t);
      [s[0]] + t
  }

  /** A sort of the candidates by key, from the highest down. */
  function SortByKey(rs: seq<Review>, cs: seq<Product>): (r: seq<Product>)
    ensures Descending(rs, r)
    ensures multiset(r) == multiset(cs)
  {
    if cs == [] then []
    else
      assert cs == [cs[0]] + cs[1..];
      Insert(rs, cs[0], SortByKey(rs, cs[1..]))
  }

  /**
   * What the recommender promises of its list: at most three products, the full three
   * when there are that many candidates, ordered from the highest average down, each taken
   * from the candidates no more often than it occurs there, and no candidate left out rated
   * above one taken.
   */
  predicate IsRanking(rs: seq<Review>, top: seq<Product>, cands: seq<Product>) {
    && |top| == Min(3, |cands|)
    && Descending(rs, top)
    && multiset(top) <= multiset(cands)
    && forall x, y :: x in multiset(cands) - multiset(top) && y in top ==> Key(rs, x) <= Key(rs, y)
  }

  /** A prefix of a descending list is descending. */
  lemma PrefixDescending(rs: seq<Review>, s: seq<Product>, k: nat)
    requires Descending(rs, s) && k <= |s|
    ensures Descending(rs, s[..k])
  {
    assert forall i :: 0 <= i < k ==> s[..k][i] == s[i];
  }

  /** In a descending list, nothing after position `k` has a higher key than anything before it. */
  lemma TailBelowHead(rs: seq<Review>, s: seq<Product>, k: nat)
    requires Descending(rs, s) && k <= |s|
    ensures forall x, y :: x in multiset(s[k..]) && y in s[..k] ==> Key(rs, x) <= Key(rs, y)
  {
    forall x, y | x in multiset(s[k..]) && y in s[..k] ensures Key(rs, x) <= Key(rs, y) {
      var a :| 0 <= a < |s[k..]| && s[k..][a] == x;
      var b :| 0 <= b < k && s[..k][b] == y;
      assert s[k + a] == x && s[b] == y;
    }
  }

  /** Taking a prefix away from a list's multiset leaves the rest's multiset. */
  lemma MultisetSplit(s: seq<Product>, k: nat)
    requires k <= |s|
    ensures multiset(s[..k]) <= multiset(s)
    ensures multiset(s) - multiset(s[..k]) == multiset(s[k..])
  {
    assert s == s[..k] + s[k..];
  }

  /**
   * `std::sort` is not stable, so ties may come out in any order: the first three of ANY
   * arrangement of the candidates from the highest average down form a ranking.
   */
  lemma TopOfDescending(rs: seq<Review>, cands: seq<Product>, sorted: seq<Product>)
    requires Descending(rs, sorted) && multiset(sorted) == multiset(cands)
    ensures IsRanking(rs, sorted[..Min(3, |sorted|)], cands)
  {
    var k := Min(3, |sorted|);
    PrefixDescending(rs, sorted, k);
    TailBelowHead(rs, sorted, k);
    MultisetSplit(sorted, k);
    assert |cands| == |multiset(cands)| == |sorted|;
  }

  /** Steps 3 and 4 of the recommender: no candidates give an empty list, else the first three after sorting. */
  function TopThree(rs: seq<Review>, cands: seq<Product>): (r: seq<Product>)
    ensures IsRanking(rs, r, cands)
  {
    if cands == [] then []
    else
      var sorted := SortByKey(rs, cands);
      TopOfDescending(rs, cands, sorted);
      sorted[..Min(3, |sorted|)]
  }

  /**
   * Steps 1 and 2 of `getRecommendationsJson`: the user must exist and have reviewed
   * something, and the product of the last entry of `getReviewedProductIds` must still
   * exist; that product is the target whose category is searched.
   */
  function Target(s: Store, uid: int): (r: Result<Product, Error>)
    ensures r.Success? ==> r.value in s.products
  {
    if UserIndex(s.users, uid).None? then Failure(UserNotFound)
    else
      var ids := ReviewedProductIds(s.reviews, uid);
      if ids == [] then Failure(NoReviewHistory)
      else
        match ProductIndex(s.products, ids[|ids| - 1])
        case None => Failure(LastProductMissing)
        case Some(k) => Success(s.products[k])
  }

  /**
   * The target step fails for a missing user, then for a user without reviews, then when
   * the product of the user's last review is gone; otherwise the target is that product.
   */
  lemma TargetOutcome(s: Store, uid: int)
    ensures Target(s, uid) == Failure(UserNotFound) <==> forall i :: 0 <= i < |s.users| ==> s.users[i].id != uid
    ensures Target(s, uid) == Failure(NoReviewHistory) <==>
      UserIndex(s.users, uid).Some? && forall i :: 0 <= i < |s.reviews| ==> s.reviews[i].userId != uid
    ensures Target(s, uid) == Failure(LastProductMissing) <==>
      && UserIndex(s.users, uid).Some? && LastReviewed(s.reviews, uid).Some?
      && ProductIndex(s.products, LastReviewed(s.reviews, uid).value).None?
    ensures Target(s, uid).Success? ==>
      && UserIndex(s.users, uid).Some? && LastReviewed(s.reviews, uid) == Some(Target(s, uid).value.id)
      && ProductIndex(s.products, Target(s, uid).value.id).Some?
      && s.products[ProductIndex(s.products, Target(s, uid).value.id).value] == Target(s, uid).value
  {
    if UserIndex(s.users, uid).Some? {
      LastReviewedIsLastId(s.reviews, uid);
    }
  }

  /**
   * `getRecommendationsJson`: when the target step succeeds, the first three of the target
   * category's unreviewed products, sorted by average from the highest down; otherwise the
   * target step's error.
   */
  function Recommend(s: Store, uid: int): (r: Result<seq<Product>, Error>)
    ensures r.Failure? <==> Target(s, uid).Failure?
    ensures r.Failure? ==> r.error == Target(s, uid).error
    ensures r.Success? ==>
      IsRanking(s.reviews, r.value, Candidates(s.products, s.reviews, uid, Target(s, uid).value.category))
  {
    match Target(s, uid)
    case Failure(e) => Failure(e)
    case Success(p) => Success(TopThree(s.reviews, Candidates(s.products, s.reviews, uid, p.category)))
  }

  /** Everything recommended is a catalog product of the target category that the user has not reviewed. */
  lemma RecommendsUnreviewed(s: Store, uid: int)
    ensures var r := Recommend(s, uid);
      r.Success? ==> forall i :: 0 <= i < |r.value| ==>
        r.value[i] in s.products && !HasReviewed(s.reviews, uid, r.value[i].id)
  {
    var r := Recommend(s, uid);
    if r.Success? {
      var cands := Candidates(s.products, s.reviews, uid, Target(s, uid).value.category);
      forall i | 0 <= i < |r.value|
        ensures r.value[i] in s.products && !HasReviewed(s.reviews, uid, r.value[i].id)
      {
        assert r.value[i] in multiset(r.value);
        assert r.value[i] in multiset(cands);
        var j :| 0 <= j < |cands| && cands[j] == r.value[i];
      }
    }
  }
}

=== FILE: text.dfy ===
/** Character classes and the `std::string` searches the codec relies on. */
module Text {
  import opened Basics

  /** `isspace` in the C locale: space, tab, newline, vertical tab, form feed, carriage return. */
  predicate IsSpace(c: char) {
    c == ' ' || c == '\t' || c == '\n' || c == '\U{000B}' || c == '\U{000C}' || c == '\r'
  }

  /** The four characters the array splitter trims: space, tab, newline, carriage return. */
  predicate IsBlank(c: char) {
    c == ' ' || c == '\t' || c == '\n' || c == '\r'
  }

  predicate IsDigit(c: char) {
    '0' <= c <= '9'
  }

  /** `pat` occurs in `s` starting at index `i`. */
  predicate MatchAt(s: string, pat: string, i: nat) {
    i + |pat| <= |s| && s[i..i + |pat|] == pat
  }

  /** No occurrence of `pat` in `s` starts at an index in `[lo, hi)`. */
  predicate NoMatchIn(s: string, pat: string, lo: nat, hi: nat) {
    forall i: nat :: lo <= i < hi ==> !MatchAt(s, pat, i)
  }

  /** Taking the length of the first part of a concatenation gives that part back. */
  lemma TakeConcat(a: string, b: string)
    ensures (a + b)[..|a|] == a
    ensures (a + b)[|a|..] == b
  {
  }

  lemma ConcatAssoc(a: string, b: string, c: string)
    ensures (a + b) + c == a + (b + c)
  {
  }

  /** Moving a separator and what precedes it from the right part to the left part. */
  lemma RegroupAfter(pre: string, a: string, c: char, m: string)
    ensures pre + (a + ([c] + m)) == (pre + a + [c]) + m
  {
  }

  /** `s.find(pat, from)`: the first occurrence of `pat` at or after `from`, None for `npos`. */
  function Find(s: string, pat: string, from: nat): (r: Option<nat>)
    decreases |s| - from
    ensures r.Some? ==> from <= r.value && MatchAt(s, pat, r.value)
    ensures r.Some? ==> NoMatchIn(s, pat, from, r.value)
    ensures r.None? ==> NoMatchIn(s, pat, from, |s| + 1)
  {
    if from + |pat| > |s| then None
    else if MatchAt(s, pat, from) then Some(from)
    else Find(s, pat, from + 1)
  }

  /** `Find` is determined by where the first occurrence is. */
  lemma FindFirst(s: string, pat: string, from: nat, p: nat)
    requires from <= p && MatchAt(s, pat, p) && NoMatchIn(s, pat, from, p)
    ensures Find(s, pat, from) == Some(p)
  {
  }

  /** Shifting both the text and the index by a prefix does not change a match. */
  lemma MatchShift(pre: string, s: string, pat: string, i: nat)
    ensures MatchAt(pre + s, pat, |pre| + i) <==> MatchAt(s, pat, i)
  {
    if i + |pat| <= |s| {
      assert (pre + s)[|pre| + i..|pre| + i + |pat|] == s[i..i + |pat|];
    }
  }

  /** A match fixes every character it covers. */
  lemma MatchChar(s: string, pat: string, i: nat, m: nat)
    requires MatchAt(s, pat, i) && m < |pat|
    ensures s[i + m] == pat[m]
  {
    assert s[i..i + |pat|][m] == s[i + m];
  }

  /** Two different texts of one length differ at some index. */
  lemma Differ(a: string, b: string) returns (m: nat)
    requires |a| == |b| && a != b
    ensures m < |a| && a[m] != b[m]
  {
    assert !(forall i :: 0 <= i < |a| ==> a[i] == b[i]);
    m :| m < |a| && a[m] != b[m];
  }

  /** `s.find_first_of(cs)`: the index of the first character of `s` that is in `cs`. */
  function IndexOfAny(s: string, cs: set<char>): (r: Option<nat>)
    ensures r.Some? ==> r.value < |s| && s[r.value] in cs
    ensures r.Some? ==> forall i :: 0 <= i < r.value ==> s[i] !in cs
    ensures r.None? ==> forall i :: 0 <= i < |s| ==> s[i] !in cs
  {
    if s == [] then None
    else if s[0] in cs then Some(0)
    else match IndexOfAny(s[1..], cs)
      case None => None
      case Some(k) => Some(k + 1)
  }

  /** The first position of a character of `cs` is determined by the characters before it. */
  lemma IndexOfAnyAt(s: string, cs: set<char>, k: nat)
    requires k < |s| && s[k] in cs
    requires forall i :: 0 <= i < k ==> s[i] !in cs
    ensures IndexOfAny(s, cs) == Some(k)
  {
  }

  /** The text left after skipping leading `isspace` characters. */
  function DropSpace(s: string): (r: string)
    ensures |r| <= |s| && r == s[|s| - |r|..]
    ensures forall i :: 0 <= i < |s| - |r| ==> IsSpace(s[i])
    ensures r == [] || !IsSpace(r[0])
  {
    if s != [] && IsSpace(s[0]) then DropSpace(s[1..]) else s
  }

  /** A text that does not start with white space is left as it is. */
  lemma DropSpaceKeeps(s: string)
    requires s == [] || !IsSpace(s[0])
    ensures DropSpace(s) == s
  {
  }

  /** Skipping white space stops at the first character that is not white space. */
  lemma {:induction false} DropSpaceOver(ws: string, s: string)
    requires forall i :: 0 <= i < |ws| ==> IsSpace(ws[i])
    requires s == [] || !IsSpace(s[0])
    ensures DropSpace(ws + s) == s
  {
    if ws == [] {
      assert ws + s == s;
    } else {
      assert (ws + s)[1..] == ws[1..] + s;
      DropSpaceOver(ws[1..], s);
    }
  }

  /** The text left after removing leading blanks. */
  function TrimLeft(s: string): (r: string)
    ensures |r| <= |s| && r == s[|s| - |r|..]
    ensures forall i :: 0 <= i < |s| - |r| ==> IsBlank(s[i])
    ensures r == [] || !IsBlank(r[0])
  {
    if s != [] && IsBlank(s[0]) then TrimLeft(s[1..]) else s
  }

  /** The text left after removing trailing blanks. */
  function TrimRight(s: string): (r: string)
    ensures |r| <= |s| && r == s[..|r|]
    ensures forall i :: |r| <= i < |s| ==> IsBlank(s[i])
    ensures r == [] || !IsBlank(r[|r| - 1])
  {
    if s != [] && IsBlank(s[|s| - 1]) then TrimRight(s[..|s| - 1]) else s
  }

  /** The `find_first_not_of` / `find_last_not_of` trim of the array splitter. */
  function Trim(s: string): (r: string)
    ensures r == [] || (!IsBlank(r[0]) && !IsBlank(r[|r| - 1]))
    ensures r == [] <==> forall i :: 0 <= i < |s| ==> IsBlank(s[i])
  {
    TrimRight(TrimLeft(s))
  }

  /** Leading blanks are removed up to the first non-blank. */
  lemma {:induction false} TrimLeftOver(a: string, s: string)
    requires forall i :: 0 <= i < |a| ==> IsBlank(a[i])
    requires s != [] && !IsBlank(s[0])
    ensures TrimLeft(a + s) == s
  {
    if a == [] {
      assert a + s == s;
    } else {
      assert (a + s)[1..] == a[1..] + s;
      TrimLeftOver(a[1..], s);
    }
  }

  /** Trailing blanks are removed back to the last non-blank. */
  lemma TrimRightOver(s: string, b: string)
    requires forall i :: 0 <= i < |b| ==> IsBlank(b[i])
    requires s != [] && !IsBlank(s[|s| - 1])
    ensures TrimRight(s + b) == s
  {
    var r := TrimRight(s + b);
    assert (s + b)[|s| - 1] == s[|s| - 1];
    assert r == (s + b)[..|r|];
  }

  /** Trimming leaves a text that begins and ends with non-blanks untouched. */
  lemma TrimKeeps(a: string, s: string, b: string)
    requires s != [] && !IsBlank(s[0]) && !IsBlank(s[|s| - 1])
    requires forall i :: 0 <= i < |a| ==> IsBlank(a[i])
    requires forall i :: 0 <= i < |b| ==> IsBlank(b[i])
    ensures Trim(a + s + b) == s
  {
    assert a + s + b == a + (s + b);
    assert (s + b)[0] == s[0];
    TrimLeftOver(a, s + b);
    TrimRightOver(s, b);
  }
}
